=== FILE: README.md ===
# xclock in Dafny

xclock extends the Windows taskbar clock. It has two mechanisms.

- **Overlay** (xclock/src/lib.rs). A low-level mouse hook watches the mouse. While the cursor rests on the clock, the program shows its own tooltip window with the system uptime and the ISO week.
- **In-place** (xclock-hook/src/lib.rs and xclock/src/lib_new.rs). A system-wide CBT hook lives in a DLL. When a `tooltips_class32` window is created near the bottom of the screen and its text looks like a time, the hook appends the uptime and the week number ("Opptid", "Uke").

This project models the decision logic of both mechanisms as pure functions over immutable state. Every answer the operating system gives becomes a parameter:

- window rectangles and class names;
- handles returned by `SetWindowsHookExW`, `CreateWindowExW` and `LoadLibraryW`;
- success flags;
- tick counts, clocks and the screen size.

A handle is a `nat`, and 0 is the null handle.

| file | module | models |
|---|---|---|
| win.dfy | `Win` | handles, rectangles, points, `Option`, 16/32-bit unsigned ranges, `i32` division |
| text.dfy | `Text` | `str::contains`, ASCII digits, UTF-8 length (`str::len`), `str::lines` |
| decimal.dfy | `Decimal` | `{}` formatting of integers and a canonical reader for it |
| wide.dfy | `Wide` | `to_wide_string`/`string_to_utf16`, `from_wide_string`/`utf16_to_string` |
| uptime.dfy | `Uptime` | the uptime split and its three text shapes |
| hittest.dfy | `HitTest` | `is_point_in_any_clock` |
| discovery.dfy | `Discovery` | `find_all_clock_windows` |
| layout.dfy | `Layout` | overlay text, tooltip size and position in `show_tooltip` |
| overlay.dfy | `Overlay` | `show_tooltip`, `hide_tooltip`, `mouse_hook_proc`, `start_clock_hook`, `stop_clock_hook` |
| hookdll.dfy | `HookDll` | cooldown, filters and rewrite of `modify_tooltip_text`, `cbt_hook_proc`, `InstallHook`, `UninstallHook` |
| lifecycle.dfy | `Lifecycle` | `load_hook_dll`, `unload_hook_dll`, `call_dll_function`, `start_monitoring`, `stop_monitoring` |

Three behaviours of the code are worth noting; the model follows the code:

- A target window whose class is neither a clock class nor `TrayNotifyWnd` never matches the cursor. It is not checked against its whole rectangle.
- Discovery looks only at the main taskbar `Shell_TrayWnd`. Secondary taskbars are not searched.
- `start_monitoring` on a running monitor returns an error rather than doing nothing.

`RegisterClassW` is modelled with the system's rule that registering a class name twice fails. So a second `start_clock_hook` stops at class registration and never installs a second mouse hook.

## Model

| member | source | states |
|---|---|---|
| Text.ContainsIff | xclock-hook/src/lib.rs:127-131 | the substring test used by the filters holds exactly when the pattern occurs at some offset |
| Text.Utf8Len | xclock/src/lib.rs:230 | a line's byte length lies between its character count and four times that count |
| Text.AsciiUtf8Len | xclock/src/lib.rs:230 | for ASCII text the byte length equals the character count |
| Text.LinesHaveNoNewline | xclock/src/lib.rs:229-230 | no line produced by the line splitter contains a line break |
| Text.LinesAppend | xclock-hook/src/lib.rs:138 | after text that does not end in a line break or carriage return, appending '\n' and more text keeps the old lines and adds the new ones |
| Text.JoinLinesOfLines | xclock/src/lib.rs:229-230 | for text without carriage returns or a final line break, joining the lines with '\n' rebuilds the text |
| Decimal.NatToString | xclock/src/lib.rs:77-83 | a rendered count is non-empty, all digits, has no leading zero, and is one digit exactly below ten |
| Decimal.DigitsValueOfNatToString | xclock/src/lib.rs:77-83 | reading the digits of a rendered count gives the count back |
| Decimal.ParseNatOfRendered | xclock/src/lib.rs:77-83 | the canonical reader recovers a count from its rendering followed by any non-digit text |
| Decimal.ParseNatSplits | xclock/src/lib.rs:77-83 | whatever the reader accepts is a rendered count followed by the rest it returns |
| Wide.EncodeUtf16 | xclock-hook/src/lib.rs:32-34 | each character gives one or two UTF-16 units |
| Wide.TrimTrailingNul | xclock-hook/src/lib.rs:25-30 | the result is a prefix with no trailing NUL, and only NULs were removed |
| Wide.ToWide | xclock/src/lib.rs:37-39 | the wide string is at least one unit longer than the text and ends in 0 |
| Wide.DecodeEncode | xclock-hook/src/lib.rs:25-34 | decoding the UTF-16 units of a string, followed by any units, gives the string first |
| Wide.ToWideLayout | xclock/src/lib.rs:37-39 | the wide string is exactly the units of the text plus one 0 terminator |
| Wide.FromWideToWide | xclock/src/lib.rs:37-43 | a string without trailing NUL survives encoding and decoding |
| Wide.FromWideEncoded | xclock-hook/src/lib.rs:25-30 | reading back stored units of a string without trailing NUL gives the string |
| Wide.TrimIdempotent | xclock-hook/src/lib.rs:28 | stripping trailing NULs twice is the same as once |
| Uptime.Split | xclock/src/lib.rs:72-75 | hours < 24 and minutes < 60, and the span accounts for the seconds to within one minute |
| Uptime.SplitUnique | xclock/src/lib.rs:72-75 | no other normal span brackets the seconds that closely |
| Uptime.HookUptimeDays | xclock-hook/src/lib.rs:87-91 | the 32-bit tick counter never shows more than 49 days |
| Uptime.ParseFormat | xclock/src/lib.rs:77-83 | every uptime text reads back as the span it was printed from |
| Uptime.FormatParse | xclock/src/lib.rs:77-83 | every text the reader accepts is the printed form of the span it reads |
| Uptime.FormatIffParse | xclock-hook/src/lib.rs:93-99 | a text is the uptime text of a span if and only if it reads back as that span |
| Uptime.FormatExamples | xclock/src/lib.rs:77-83 | 5 minutes print as "5m", 1 day 2 hours 3 minutes as "1d 2h 3m", 3 hours as "3h 0m" |
| HitTest.IsPointInAnyClock | xclock/src/lib.rs:145-180 | true exactly when targets were stored and some target matches: non-null, rectangle known, and inside under its class rule |
| HitTest.RightThirdRegion | xclock/src/lib.rs:164-172 | the notification-area region lies inside the rectangle and is exactly the points with 3*(x-left+1) > 2*width |
| HitTest.ClockClassesUseExactRect | xclock/src/lib.rs:158-161 | the three clock classes select the whole inclusive rectangle |
| HitTest.NotifyClassUsesRightThird | xclock/src/lib.rs:164-172 | `TrayNotifyWnd` selects the right-third rule |
| HitTest.UnknownClassNeverMatches | xclock/src/lib.rs:45-53 | the name reported for a failed class query never matches |
| HitTest.HitTestExamples | xclock/src/lib.rs:158-172 | rectangle edges are inclusive, and the notification area's clock part starts at two thirds of its width |
| Discovery.FoundClocks | xclock/src/lib.rs:111-127 | the found clocks are non-null and at most one per class |
| Discovery.FindAllClockWindows | xclock/src/lib.rs:94-142 | empty without taskbar or notification area; otherwise the found clocks, or just the notification area when none was found |
| Discovery.FoundClocksMembers | xclock/src/lib.rs:111-127 | a handle is found exactly when it is non-null and the lookup of some clock class returned it |
| Discovery.FoundClocksOrder | xclock/src/lib.rs:111-127 | clocks appear in the priority order of their classes |
| Layout.PrintableLines | xclock/src/lib.rs:85-90 | both overlay lines are printable ASCII |
| Text.LinesOfTwo | xclock/src/lib.rs:229 | two printable lines joined by '\n' split back into exactly those lines |
| Layout.MaxLineLen | xclock/src/lib.rs:230 | the longest line's byte length bounds every line and is attained, 0 when there are no lines |
| Layout.TooltipSize | xclock/src/lib.rs:229-233 | width ≥ 250 and height ≥ 60; every line fits at 8 pixels per byte; each dimension is its minimum or exactly what the text needs |
| Layout.OverlaySize | xclock/src/lib.rs:56-91 | the overlay text always has two lines, so the tooltip is always 60 high |
| Layout.Position | xclock/src/lib.rs:235-244 | right of the cursor unless that overflows the screen, above unless that goes negative; the tooltip never covers the cursor |
| Overlay.ShowTooltip | xclock/src/lib.rs:207-272 | no effect while a tooltip is visible or exists; otherwise the window requested is sized for the overlay text and placed by the layout rules, so it never covers the cursor; a created window is recorded as the visible tooltip, and a failed creation changes nothing |
| Overlay.HideTooltip | xclock/src/lib.rs:274-281 | afterwards no window is held; with no window nothing changes |
| Overlay.HideIdempotent | xclock/src/lib.rs:274-281 | hiding twice equals hiding once, and from a consistent state ends hidden |
| Overlay.MouseHookProc | xclock/src/lib.rs:284-330 | every event is forwarded with the current hook; negative codes and other messages change nothing; clicks and leaving the clocks hide; a move updates a stored position; the tooltip is shown exactly when it is not visible and the event's point lies on a clock in the window layout both before and after the delay, and is otherwise left alone while that point is on a clock |
| Overlay.MouseHookProcRechecked | xclock/src/lib.rs:304-313 | corrected hook: after the delay the cursor's current position is tested; a tooltip appears only when the cursor is still on a clock then, and does appear in that case when creation succeeds |
| Overlay.RecheckedAgreesWhenCursorStays | xclock/src/lib.rs:304-313 | when the cursor did not move during the delay, the corrected hook and the original give the same result |
| Overlay.StaleRecheckShowsAfterLeaving | xclock/src/lib.rs:309-313 | as written, the recheck uses the event's point, so a cursor position off the clock at the end of the delay does not stop the tooltip; the corrected hook shows none |
| Overlay.StartClockHook | xclock/src/lib.rs:442-470 | the first start stores the origin as the mouse position and the found clock windows as the targets, and neither is replaced later; started exactly when clocks exist, the class registers and the hook installs; otherwise the error names the first check that failed (no clock windows, class registration, hook install); the class stays registered once registration succeeded; failures leave the hook and running flag unchanged |
| Overlay.EmptyTargetsStick | xclock/src/lib.rs:447-453 | after a first start that found no clock window the stored targets stay empty, so even after a later successful start no point is on a clock |
| Overlay.StopClockHook | xclock/src/lib.rs:472-479 | afterwards not running, no hook and no tooltip window; targets, the class flag and the stored mouse position are kept |
| Overlay.StopIdempotent | xclock/src/lib.rs:472-479 | stopping twice equals stopping once |
| Overlay.SecondStartInstallsNoSecondHook | xclock/src/lib.rs:442-465 | after a successful start, a second start fails before installing a hook and keeps the first |
| Overlay.RunningAsWrittenBeforeStart | xclock/src/lib.rs:31 | with the flag as initialised, the status says running before any start and after a failed one |
| Overlay.RunningOnlyAfterSuccessfulStart | xclock/src/lib.rs:465 | with the flag starting false, it is set after a first start exactly when that start succeeded |
| HookDll.ShouldUpdate | xclock-hook/src/lib.rs:72-79 | an update is allowed exactly when there was none before or at least 500 ms have passed since it |
| HookDll.TaskbarAreaMonotone | xclock-hook/src/lib.rs:56-70 | only the top edge decides: a tooltip lower down, or on a screen no taller, is accepted whenever the first is; an unreadable rectangle is refused on every screen |
| HookDll.TaskbarAreaExamples | xclock-hook/src/lib.rs:64-66 | on a 1080-pixel screen a top edge at 881 is accepted and one at 880 refused |
| HookDll.EndingInDigitLooksLikeTime | xclock-hook/src/lib.rs:127-134 | any text ending in an ASCII digit passes the time filter |
| HookDll.LooksLikeTimeExamples | xclock-hook/src/lib.rs:127-134 | "12:34" and "5/6" pass; "" and "Monday" are rejected |
| HookDll.NewText | xclock-hook/src/lib.rs:136-138 | the current text is a strict prefix of the new text, followed by a line break, and the new text ends in a digit |
| HookDll.NewTextLines | xclock-hook/src/lib.rs:136-138 | the new text is the current text's lines followed by an "Opptid: " line whose uptime reads back as the split of the tick count's whole seconds, and an "Uke " line whose number reads back as the week |
| HookDll.ModifyTooltipText | xclock-hook/src/lib.rs:110-148 | written exactly when cooldown, class, position, time-text and write all succeed, checked in that order; rejections change neither text nor timestamp; a write sets the timestamp and reads back as the extended text |
| HookDll.CooldownAfterWrite | xclock-hook/src/lib.rs:72-83 | within 500 ms after a write every further call is refused by the cooldown |
| HookDll.AppendsAgainAfterCooldown | xclock-hook/src/lib.rs:110-148 | the extended text passes all filters again, so after the cooldown the same tooltip grows again |
| HookDll.CbtHookProc | xclock-hook/src/lib.rs:151-178 | events are always forwarded with a null hook handle; only window creation can schedule a rewrite |
| HookDll.CbtAgreesWithModify | xclock-hook/src/lib.rs:156-160 | a created window is scheduled exactly when the rewrite's class gate would accept it |
| HookDll.CbtIgnoresOtherCodes | xclock-hook/src/lib.rs:156 | other hook codes schedule nothing |
| HookDll.InstallHook | xclock-hook/src/lib.rs:182-201 | when installed returns 1 and changes nothing; otherwise a non-null hook from the system is stored as the handle, marked installed, added to the live hooks and 1 returned, and a null one returns 0 leaving the state alone; keeps the flag and handle consistent and at most one hook alive |
| HookDll.UninstallHook | xclock-hook/src/lib.rs:204-222 | when not installed returns 1 and changes nothing; with a handle, a successful unhook clears flag and handle, removes the hook from the live hooks and returns 1, a failed one returns 0 leaving the state alone; with a null handle it only clears the flag and returns 1 |
| HookDll.InstallIdempotent | xclock-hook/src/lib.rs:183-185 | a second install after a successful one changes nothing and reports success |
| HookDll.UninstallIdempotent | xclock-hook/src/lib.rs:205-207 | a second uninstall after a successful one changes nothing and reports success |
| HookDll.UninstallUndoesInstall | xclock-hook/src/lib.rs:182-222 | a successful uninstall returns to the state before a successful install |
| Lifecycle.LoadHookDll | xclock/src/lib_new.rs:21-34 | a no-op when a library is held; a failed load leaves the handle null and reports an error; a successful load stores the library and its exports with no hook installed yet |
| Lifecycle.UnloadHookDll | xclock/src/lib_new.rs:36-41 | afterwards no library is held; with none held nothing changes |
| Lifecycle.UnloadUndoesLoad | xclock/src/lib_new.rs:21-41 | unloading after a successful load returns to the unloaded state |
| Lifecycle.CallDllFunction | xclock/src/lib_new.rs:43-71 | fails without a library, for a name with a NUL, for a missing export, or for an exported name that is neither known function, each exactly in its case and in that order, and then changes nothing; a known export runs `InstallHook` or `UninstallHook` against the library's hook state and passes its `BOOL` back |
| Lifecycle.StartMonitoring | xclock/src/lib_new.rs:73-91 | fails with `AlreadyRunning` exactly when running; otherwise running exactly on success; with no library held, success exactly when the load succeeds, the library exports `InstallHook` and the system installs the hook; with one held, exactly when it exports `InstallHook` and a hook is or becomes installed; `InstallFailed` exactly when the loaded library's `InstallHook` returned 0, the library staying loaded; the error says whether the load or the export lookup failed; success keeps the loaded library, its exports and the installed hook |
| Lifecycle.StopMonitoring | xclock/src/lib_new.rs:93-103 | afterwards not running and no library is held, whatever the uninstall answered; when a held library exports `UninstallHook` it is called and its effect on the live hooks kept, otherwise the live hooks are unchanged |
| Lifecycle.StopIdempotent | xclock/src/lib_new.rs:93-103 | stopping twice equals stopping once |
| Lifecycle.StartWhileRunningFails | xclock/src/lib_new.rs:74-76 | a start after a successful start is refused and leaves everything unchanged |
| Lifecycle.StartStopRoundTrip | xclock/src/lib_new.rs:73-103 | from a fresh process a start succeeds exactly when the library loads, exports `InstallHook` and the hook installs; stopping then restores the fresh state |
| Lifecycle.FailedUnhookLeavesHook | xclock/src/lib_new.rs:96-100 | when the unhook fails, stopping still reports stopped with the hook alive, and a restart registers a second hook |

## Left out

- The Win32 calls themselves are not modelled: window lookup, rectangles, class names, window creation and destruction, hooks, timers, `LoadLibraryW`, `GetProcAddress`, `FreeLibrary`. Their answers are parameters.
- Painting and the 5-second hide timer of `tooltip_window_proc` are not modelled. The timer's effect is `Overlay.HideTooltip`.
- `hide_native_tooltips` is not modelled. It is a window enumeration with a screen-position heuristic and has no effect on the modelled state.
- The ISO-8601 week number and week year are inputs. They are computed by a date library.
- Clocks are integers. Uptime in the overlay is a number of whole seconds, where the source subtracts the tick count from the wall clock. `Instant` readings are millisecond integers.
- Threads, the 100 ms sleeps and atomics are sequential here. The mouse hook's delay is modelled as two window snapshots, one before and one after it. The CBT hook's spawned rewrite is the separate step `HookDll.ModifyTooltipText`.
- Message pumps, `DllMain` and the command-line program are not modelled.
- Layout.Position: `i32` overflow of screen coordinates is not modelled. Coordinates are unbounded integers.
- HitTest.IsPointInAnyClock: the `i32` product `width * 2` is not wrapped. It only matters for widths above 2^30 pixels.
- HookDll.ModifyTooltipText: the text is what `GetWindowTextW` returned. Its truncation to 511 units by the 512-unit buffer is not modelled, and neither is the 256-unit class-name buffer.
- Lifecycle.UnloadHookDll: unloading is taken to discard the library's statics, as when the process holds the last reference. Hooks it registered stay in `live`.
- HookDll.ModifyTooltipText: `mark_tooltip_updated` reads `Instant::now()` again after `SetWindowTextW`; the model stores the reading of the cooldown check, taking the two as one.
- The `Box<dyn Error>` and `String` messages are not modelled. Errors are enumerations; the `Result<T>` of `call_dll_function` is the `BOOL` value.

## Findings

| source | as written | input that shows it | evidently intended | confidence | as-written member | corrected member |
|---|---|---|---|---|---|---|
| xclock/src/lib.rs:31 | `RUNNING` starts out true, so `is_hook_running` reports a running hook before any start, and after a start that failed | a fresh process whose start finds no clock window (empty taskbar maps) | start out false, as xclock/src/lib_new.rs:10 does, so the flag is set only by a successful `start_clock_hook` | medium, not executed | Overlay.RunningAsWrittenBeforeStart | Overlay.RunningOnlyAfterSuccessfulStart |
| xclock/src/lib.rs:309-313 | after the 100 ms delay the event's own point is tested against the windows again, so the check the comment describes, that the mouse is still in the clock area, is not what the code does: it can only notice the clock windows having moved, never the cursor having moved | a move to (50, 20) over a clock window at (0, 0)-(100, 40) whose cursor position read at the end of the delay is (500, 500); in a low-level mouse hook further input waits for the hook to return, so such a reading needs the cursor to be moved by other means during the sleep | test the cursor's position at the end of the delay | low, not executed | Overlay.StaleRecheckShowsAfterLeaving | Overlay.MouseHookProcRechecked |

=== FILE: decimal.dfy ===
/**
 * Decimal rendering of integers as Rust's `{}` formatting prints them
 * (no leading zeros, a '-' sign for negatives), and its inverse.
 */
module Decimal {
  import opened Text
  import opened Win

  function DigitChar(d: nat): (c: char)
    requires d < 10
    ensures IsAsciiDigit(c)
  {
    ['0', '1', '2', '3', '4', '5', '6', '7', '8', '9'][d]
  }

  function DigitValue(c: char): (d: nat)
    requires IsAsciiDigit(c)
    ensures d < 10
  {
    c as int - '0' as int
  }

  predicate AllDigits(s: string) {
    forall i :: 0 <= i < |s| ==> IsAsciiDigit(s[i])
  }

  /** `format!("{}", n)` for an unsigned integer. */
  function NatToString(n: nat): (s: string)
    ensures |s| > 0 && AllDigits(s)
    ensures n > 0 ==> s[0] != '0'
    ensures n < 10 <==> |s| == 1
  {
    if n < 10 then [DigitChar(n)] else NatToString(n / 10) + [DigitChar(n % 10)]
  }

  /** `format!("{}", n)` for a signed integer (an `i32` year). */
  function IntToString(n: int): (s: string)
    ensures |s| > 0 && IsAscii(s)
    ensures n < 0 <==> s[0] == '-'
  {
    if n < 0 then "-" + NatToString(-n) else NatToString(n)
  }

  /** The value of a run of decimal digits, read most significant first. */
  function DigitsValue(s: string): nat
    requires AllDigits(s)
  {
    if s == [] then 0 else DigitsValue(s[..|s| - 1]) * 10 + DigitValue(s[|s| - 1])
  }

  /** Reading back a rendered number gives the number. */
  lemma {:induction false} DigitsValueOfNatToString(n: nat)
    ensures DigitsValue(NatToString(n)) == n
  {
    var s := NatToString(n);
    if n >= 10 {
      DigitsValueOfNatToString(n / 10);
      assert s[..|s| - 1] == NatToString(n / 10);
    }
  }

  /** Rendering the value of a canonical digit string gives the string. */
  lemma {:induction false} NatToStringOfDigitsValue(s: string)
    requires |s| > 0 && AllDigits(s)
    requires |s| > 1 ==> s[0] != '0'
    ensures NatToString(DigitsValue(s)) == s
  {
    if |s| > 1 {
      var init := s[..|s| - 1];
      var last := s[|s| - 1];
      assert init[0] == s[0];
      NatToStringOfDigitsValue(init);
      LeadingDigitPositive(init);
      var q := DigitsValue(init);
      var d := DigitValue(last);
      var n := DigitsValue(s);
      DivModByTen(n, q, d);
      assert NatToString(n) == NatToString(q) + [DigitChar(d)];
      CharOfDigitValue(last);
      assert s == init + [last];
    }
  }

  lemma CharOfDigitValue(c: char)
    requires IsAsciiDigit(c)
    ensures DigitChar(DigitValue(c)) == c
  {
  }

  /** Quotient and remainder by ten are determined by their bounds. */
  lemma DivModByTen(a: int, q: int, r: int)
    requires a == 10 * q + r && 0 <= r < 10
    ensures a / 10 == q && a % 10 == r
  {
  }

  lemma {:induction false} LeadingDigitPositive(s: string)
    requires |s| > 0 && AllDigits(s) && s[0] != '0'
    ensures DigitsValue(s) >= 1
  {
    if |s| > 1 {
      assert s[..|s| - 1][0] == s[0];
      LeadingDigitPositive(s[..|s| - 1]);
    }
  }

  /** Length of the longest all-digit prefix of `s`. */
  function DigitRun(s: string): (k: nat)
    ensures k <= |s|
    ensures AllDigits(s[..k])
    ensures k < |s| ==> !IsAsciiDigit(s[k])
  {
    if s == [] || !IsAsciiDigit(s[0]) then 0
    else
      var k := 1 + DigitRun(s[1..]);
      assert s[..k] == [s[0]] + s[1..][..k - 1];
      k
  }

  lemma DigitRunOfRendered(n: nat, rest: string)
    requires rest == [] || !IsAsciiDigit(rest[0])
    ensures DigitRun(NatToString(n) + rest) == |NatToString(n)|
    ensures (NatToString(n) + rest)[..|NatToString(n)|] == NatToString(n)
  {
    var s := NatToString(n);
    var t := s + rest;
    var k := DigitRun(t);
    assert forall i :: 0 <= i < |s| ==> t[i] == s[i];
    assert |s| < |t| ==> t[|s|] == rest[0];
  }

  /**
   * Reads a canonical decimal number (no sign, no leading zero) at the start
   * of `s`, returning it and the text after it.
   */
  function ParseNat(s: string): (r: Option<(nat, string)>)
    ensures r.Some? ==> |r.value.1| < |s|
  {
    var k := DigitRun(s);
    if k == 0 || (k > 1 && s[0] == '0') then None
    else Some((DigitsValue(s[..k]), s[k..]))
  }

  /** Parsing what `NatToString` rendered gives back the number and the rest. */
  lemma ParseNatOfRendered(n: nat, rest: string)
    requires rest == [] || !IsAsciiDigit(rest[0])
    ensures ParseNat(NatToString(n) + rest) == Some((n, rest))
  {
    var s := NatToString(n);
    DigitRunOfRendered(n, rest);
    DigitsValueOfNatToString(n);
    assert (s + rest)[|s|..] == rest;
    assert (s + rest)[0] == s[0];
  }

  /** Conversely, a successful parse splits the text into a rendering and a rest. */
  lemma ParseNatSplits(s: string)
    requires ParseNat(s).Some?
    ensures s == NatToString(ParseNat(s).value.0) + ParseNat(s).value.1
  {
    var k := DigitRun(s);
    assert s[..k][0] == s[0];
    NatToStringOfDigitsValue(s[..k]);
    assert s == s[..k] + s[k..];
  }

  /** Decimal renderings are printable ASCII. */
  lemma PrintableDecimal(n: nat)
    ensures Printable(NatToString(n))
  {
  }
}

=== FILE: discovery.dfy ===
/**
 * Target discovery of `find_all_clock_windows` (xclock/src/lib.rs): find the
 * taskbar, its notification area, and inside it the clock controls in a
 * fixed priority order, falling back to the notification area itself.
 */
module Discovery {
  import opened Win
  import HitTest

  /**
   * The window hierarchy as `FindWindowW` and `FindWindowExW` see it: the
   * top-level window registered under a class, and the first child of a
   * parent with a given class. A missing entry answers null.
   */
  datatype Shell = Shell(topLevel: map<string, Handle>, children: map<(Handle, string), Handle>)

  const TASKBAR_CLASS := "Shell_TrayWnd"
  const CLOCK_CLASSES: seq<string> := ["TrayClockWClass", "ClockWClass", "DigitalClockWClass"]

  function FindWindow(sh: Shell, className: string): Handle {
    if className in sh.topLevel then sh.topLevel[className] else NULL
  }

  function FindChild(sh: Shell, parent: Handle, className: string): Handle {
    if (parent, className) in sh.children then sh.children[(parent, className)] else NULL
  }

  /** The non-null children of `area` found for `classes`, in the order of `classes`. */
  function FoundClocks(sh: Shell, area: Handle, classes: seq<string>): (found: seq<Handle>)
    ensures |found| <= |classes|
    ensures forall i :: 0 <= i < |found| ==> found[i] != NULL
  {
    if classes == [] then []
    else
      var last := FindChild(sh, area, classes[|classes| - 1]);
      FoundClocks(sh, area, classes[..|classes| - 1]) + (if last != NULL then [last] else [])
  }

  /**
   * Reference definition of the discovered targets: nothing without a taskbar
   * and notification area, else the found clock controls, else the
   * notification area alone.
   */
  function ClockCandidates(sh: Shell): seq<Handle> {
    var taskbar := FindWindow(sh, TASKBAR_CLASS);
    var area := FindChild(sh, taskbar, HitTest.NOTIFY_CLASS);
    if taskbar == NULL || area == NULL then []
    else
      var found := FoundClocks(sh, area, CLOCK_CLASSES);
      if found == [] then [area] else found
  }

  /** `find_all_clock_windows`, with the loop over the clock classes kept. */
  method FindAllClockWindows(sh: Shell) returns (candidates: seq<Handle>)
    ensures candidates == ClockCandidates(sh)
    ensures FindWindow(sh, TASKBAR_CLASS) == NULL ==> candidates == []
    ensures var taskbar := FindWindow(sh, TASKBAR_CLASS);
            var area := FindChild(sh, taskbar, HitTest.NOTIFY_CLASS);
            taskbar != NULL && area != NULL ==>
              var found := FoundClocks(sh, area, CLOCK_CLASSES);
              candidates == if found == [] then [area] else found
    ensures candidates == [] <==>
              FindWindow(sh, TASKBAR_CLASS) == NULL
              || FindChild(sh, FindWindow(sh, TASKBAR_CLASS), HitTest.NOTIFY_CLASS) == NULL
    ensures |candidates| <= |CLOCK_CLASSES|
    ensures forall i :: 0 <= i < |candidates| ==> candidates[i] != NULL
  {
    candidates := [];
    var taskbar := FindWindow(sh, TASKBAR_CLASS);
    if taskbar != NULL {
      var area := FindChild(sh, taskbar, HitTest.NOTIFY_CLASS);
      if area != NULL {
        var i := 0;
        while i < |CLOCK_CLASSES|
          invariant 0 <= i <= |CLOCK_CLASSES|
          invariant candidates == FoundClocks(sh, area, CLOCK_CLASSES[..i])
        {
          var clock := FindChild(sh, area, CLOCK_CLASSES[i]);
          assert CLOCK_CLASSES[..i + 1][..i] == CLOCK_CLASSES[..i];
          if clock != NULL {
            candidates := candidates + [clock];
          }
          i := i + 1;
        }
        assert CLOCK_CLASSES[..i] == CLOCK_CLASSES;
        if candidates == [] {
          candidates := [area];
        }
      }
    }
  }

  /** A handle is among the found clocks exactly when some class's lookup produced it. */
  lemma {:induction false} FoundClocksMembers(sh: Shell, area: Handle, classes: seq<string>, h: Handle)
    ensures h in FoundClocks(sh, area, classes) <==>
              h != NULL && exists k :: 0 <= k < |classes| && FindChild(sh, area, classes[k]) == h
  {
    if classes != [] {
      var init := classes[..|classes| - 1];
      FoundClocksMembers(sh, area, init, h);
      if exists k :: 0 <= k < |classes| && FindChild(sh, area, classes[k]) == h {
        var k :| 0 <= k < |classes| && FindChild(sh, area, classes[k]) == h;
        if k < |init| {
          assert init[k] == classes[k];
        }
      }
      if exists k :: 0 <= k < |init| && FindChild(sh, area, init[k]) == h {
        var k :| 0 <= k < |init| && FindChild(sh, area, init[k]) == h;
        assert classes[k] == init[k];
      }
    }
  }

  /**
   * Priority order: when the lookups for classes `i < j` both succeed with
   * different windows, the first one comes earlier in the result.
   */
  lemma {:induction false} FoundClocksOrder(sh: Shell, area: Handle, classes: seq<string>, i: nat, j: nat)
    requires i < j < |classes|
    requires FindChild(sh, area, classes[i]) != NULL && FindChild(sh, area, classes[j]) != NULL
    ensures exists p, q :: 0 <= p < q < |FoundClocks(sh, area, classes)|
              && FoundClocks(sh, area, classes)[p] == FindChild(sh, area, classes[i])
              && FoundClocks(sh, area, classes)[q] == FindChild(sh, area, classes[j])
  {
    var init := classes[..|classes| - 1];
    var found := FoundClocks(sh, area, classes);
    var prefix := FoundClocks(sh, area, init);
    FoundClocksExtends(sh, area, classes);
    assert init[i] == classes[i];
    if j < |classes| - 1 {
      assert init[j] == classes[j];
      FoundClocksOrder(sh, area, init, i, j);
      var p, q :| 0 <= p < q < |prefix| && prefix[p] == FindChild(sh, area, init[i])
                  && prefix[q] == FindChild(sh, area, init[j]);
      assert found[p] == prefix[p] && found[q] == prefix[q];
    } else {
      FoundClocksMembers(sh, area, init, FindChild(sh, area, classes[i]));
      var p :| 0 <= p < |prefix| && prefix[p] == FindChild(sh, area, classes[i]);
      assert found[p] == prefix[p];
    }
  }

  /** Adding a class keeps the earlier results in front and appends the new lookup when it succeeds. */
  lemma FoundClocksExtends(sh: Shell, area: Handle, classes: seq<string>)
    requires classes != []
    ensures var prefix := FoundClocks(sh, area, classes[..|classes| - 1]);
            var found := FoundClocks(sh, area, classes);
            var last := FindChild(sh, area, classes[|classes| - 1]);
            && |prefix| <= |found|
            && (forall k :: 0 <= k < |prefix| ==> found[k] == prefix[k])
            && (last != NULL ==> |found| == |prefix| + 1 && found[|prefix|] == last)
  {
  }
}

=== FILE: hittest.dfy ===
/**
 * The hit-test oracle of `is_point_in_any_clock` (xclock/src/lib.rs): a point
 * is "on the clock" when some stored target window contains it under the
 * rule its class name selects.
 */
module HitTest {
  import opened Win
  import opened Text

  /** What `GetClassNameW` and `GetWindowRect` report for one window. */
  datatype WindowInfo = WindowInfo(className: string, rect: Option<Rect>)

  /**
   * The windows as the OS sees them at the moment of a query. A handle that
   * is not in the map is stale: `GetWindowRect` fails for it.
   */
  type Desktop = map<Handle, WindowInfo>

  /** Name `get_window_class_name` reports when `GetClassNameW` fails. */
  const UNKNOWN_CLASS := "Unknown"
  const NOTIFY_CLASS := "TrayNotifyWnd"

  datatype Rule =
    | ExactRect    // class name contains "Clock" or "Time": the whole rectangle
    | RightThird   // the notification area: only its right third
    | NoMatch      // any other class never matches

  function RuleFor(className: string): Rule {
    if Contains(className, "Clock") || Contains(className, "Time") then ExactRect
    else if className == NOTIFY_CLASS then RightThird
    else NoMatch
  }

  /** Left edge of the clock area inside the notification area: `left + width * 2 / 3` in `i32`. */
  function ClockAreaLeft(r: Rect): int {
    r.left + TruncDiv((r.right - r.left) * 2, 3)
  }

  /** Containment with every edge inclusive. */
  predicate InRect(r: Rect, x: int, y: int) {
    r.left <= x <= r.right && r.top <= y <= r.bottom
  }

  predicate MatchesRule(rule: Rule, r: Rect, x: int, y: int) {
    match rule
    case ExactRect => InRect(r, x, y)
    case RightThird => ClockAreaLeft(r) <= x <= r.right && r.top <= y <= r.bottom
    case NoMatch => false
  }

  /** One target of the loop in `is_point_in_any_clock`. */
  predicate Matches(desktop: Desktop, h: Handle, x: int, y: int) {
    && h != NULL
    && h in desktop
    && desktop[h].rect.Some?
    && MatchesRule(RuleFor(desktop[h].className), desktop[h].rect.value, x, y)
  }

  /** The body of the loop in `is_point_in_any_clock`, for one target. */
  function TargetHit(desktop: Desktop, h: Handle, x: int, y: int): (b: bool)
    ensures b == Matches(desktop, h, x, y)
  {
    if h != NULL && h in desktop && desktop[h].rect.Some? then
      var rect := desktop[h].rect.value;
      var className := desktop[h].className;
      if Contains(className, "Clock") || Contains(className, "Time") then
        x >= rect.left && x <= rect.right && y >= rect.top && y <= rect.bottom
      else if className == NOTIFY_CLASS then
        x >= ClockAreaLeft(rect) && x <= rect.right && y >= rect.top && y <= rect.bottom
      else false
    else false
  }

  /** The point is on the clock: targets were stored and one of them matches. */
  predicate InAnyClock(targets: Option<seq<Handle>>, desktop: Desktop, x: int, y: int) {
    targets.Some? && exists i :: 0 <= i < |targets.value| && Matches(desktop, targets.value[i], x, y)
  }

  /**
   * `is_point_in_any_clock`: `None` stands for the target list that was never
   * stored. The loop stops at the first matching target.
   */
  method IsPointInAnyClock(targets: Option<seq<Handle>>, desktop: Desktop, x: int, y: int)
    returns (hit: bool)
    ensures hit == InAnyClock(targets, desktop, x, y)
  {
    if targets.None? {
      return false;
    }
    var windows := targets.value;
    var i := 0;
    while i < |windows|
      invariant 0 <= i <= |windows|
      invariant forall j :: 0 <= j < i ==> !Matches(desktop, windows[j], x, y)
    {
      if TargetHit(desktop, windows[i], x, y) {
        return true;
      }
      i := i + 1;
    }
    return false;
  }

  /**
   * The right-third region is inside the rectangle, and on a rectangle of
   * non-negative width it is exactly the points with
   * 3 * (x - left + 1) > 2 * width (no division involved).
   */
  lemma RightThirdRegion(r: Rect, x: int, y: int)
    ensures MatchesRule(RightThird, r, x, y) ==> InRect(r, x, y)
    ensures r.left <= r.right ==>
      (MatchesRule(RightThird, r, x, y) <==>
        InRect(r, x, y) && 3 * (x - r.left + 1) > 2 * (r.right - r.left))
  {
    var w := r.right - r.left;
    if w >= 0 {
      assert TruncDiv(w * 2, 3) == (w * 2) / 3;
    } else {
      assert TruncDiv(w * 2, 3) == -((-w * 2) / 3);
    }
  }

  lemma ClockClassesUseExactRect()
    ensures RuleFor("TrayClockWClass") == ExactRect
    ensures RuleFor("ClockWClass") == ExactRect
    ensures RuleFor("DigitalClockWClass") == ExactRect
  {
    ContainsAt("TrayClockWClass", "Clock", 4);
    ContainsAt("ClockWClass", "Clock", 0);
    ContainsAt("DigitalClockWClass", "Clock", 7);
  }

  /** The notification area falls through to the right-third rule. */
  lemma NotifyClassUsesRightThird()
    ensures RuleFor(NOTIFY_CLASS) == RightThird
  {
    NotifyHasNoClock();
    NotifyHasNoTime();
  }

  lemma NotifyHasNoClock()
    ensures !Contains(NOTIFY_CLASS, "Clock")
  {
    NotContainedByChar(NOTIFY_CLASS, "Clock", 0);
  }

  lemma NotifyHasNoTime()
    ensures !Contains(NOTIFY_CLASS, "Time")
  {
    NotContainedByChar(NOTIFY_CLASS, "Time", 2);
  }

  /** A failed class-name query never matches. */
  lemma UnknownClassNeverMatches()
    ensures RuleFor(UNKNOWN_CLASS) == NoMatch
  {
    NotContainedByChar(UNKNOWN_CLASS, "Clock", 0);
    NotContainedByChar(UNKNOWN_CLASS, "Time", 0);
  }

  /** Worked examples: a clock at (100,100)-(200,130) and a notification area at (0,0)-(300,40). */
  lemma HitTestExamples()
    ensures var clock := Rect(100, 100, 200, 130);
      && MatchesRule(ExactRect, clock, 150, 115)
      && !MatchesRule(ExactRect, clock, 250, 115)
      && !MatchesRule(ExactRect, clock, 99, 115)
      && MatchesRule(ExactRect, clock, 100, 115)
      && MatchesRule(ExactRect, clock, 200, 130)
    ensures var area := Rect(0, 0, 300, 40);
      && !MatchesRule(RightThird, area, 199, 20)
      && MatchesRule(RightThird, area, 200, 20)
      && MatchesRule(RightThird, area, 300, 20)
      && !MatchesRule(RightThird, area, 301, 20)
  {
    assert ClockAreaLeft(Rect(0, 0, 300, 40)) == 200;
  }
}

=== FILE: hookdll.dfy ===
/**
 * The global CBT hook library of xclock-hook/src/lib.rs: when a window of
 * class `tooltips_class32` is created anywhere, its text is extended in
 * place with the uptime and the week number, behind a 500 ms cooldown and a
 * chain of filters; `InstallHook` and `UninstallHook` keep the hook's
 * installed flag and handle.
 */
module HookDll {
  import opened Win
  import opened Text
  import opened Decimal
  import opened Wide
  import Uptime

  const TOOLTIP_CLASS := "tooltips_class32"
  const COOLDOWN_MS := 500
  const HCBT_CREATEWND := 3
  /** `is_tooltip_in_taskbar_area` accepts tooltips whose top lies in this bottom band of the screen. */
  const TASKBAR_BAND := 200
  const UPTIME_LABEL := "Opptid: "

  /** `Instant::elapsed`, in milliseconds: a clock that went backwards reads as zero. */
  function Elapsed(since: nat, now: nat): nat {
    if now >= since then now - since else 0
  }

  /** `should_update_tooltip`: refuse while the last successful update is younger than the cooldown. */
  predicate ShouldUpdate(lastUpdate: Option<nat>, now: nat)
    ensures ShouldUpdate(lastUpdate, now) <==> lastUpdate.None? || lastUpdate.value + COOLDOWN_MS <= now
  {
    !(lastUpdate.Some? && Elapsed(lastUpdate.value, now) < COOLDOWN_MS)
  }

  /** `is_tooltip_in_taskbar_area`; `rect` is `None` when `GetWindowRect` fails. */
  predicate IsTaskbarArea(rect: Option<Rect>, screenHeight: int) {
    match rect
    case Some(r) => r.top > screenHeight - TASKBAR_BAND
    case None => false
  }

  /**
   * Only the top edge decides: a tooltip lower on the screen, or on a screen
   * no taller, is accepted whenever the first one is, and a tooltip whose
   * rectangle cannot be read is refused on every screen.
   */
  lemma TaskbarAreaMonotone(r1: Rect, r2: Rect, h1: int, h2: int)
    requires r1.top <= r2.top && h2 <= h1
    ensures IsTaskbarArea(Some(r1), h1) ==> IsTaskbarArea(Some(r2), h2)
    ensures !IsTaskbarArea(None, h1) && !IsTaskbarArea(None, h2)
  {
  }

  /** On a 1080-pixel screen the band starts below row 880. */
  lemma TaskbarAreaExamples()
    ensures IsTaskbarArea(Some(Rect(0, 881, 100, 900)), 1080)
    ensures !IsTaskbarArea(Some(Rect(0, 880, 100, 900)), 1080)
  {
  }

  /** The "looks like a time or date" filter of `modify_tooltip_text`. */
  predicate LooksLikeTime(text: string) {
    !(text == []
      || (!Contains(text, ":") && !Contains(text, "AM") && !Contains(text, "PM")
          && !Contains(text, "/") && !HasAsciiDigit(text)))
  }

  /** Any text that ends in an ASCII digit passes the filter. */
  lemma EndingInDigitLooksLikeTime(text: string)
    requires text != [] && IsAsciiDigit(text[|text| - 1])
    ensures LooksLikeTime(text)
  {
    assert HasAsciiDigit(text);
  }

  lemma LooksLikeTimeExamples()
    ensures LooksLikeTime("12:34")
    ensures LooksLikeTime("5/6")
    ensures !LooksLikeTime("")
    ensures !LooksLikeTime("Monday")
  {
    ContainsAt("12:34", ":", 2);
    ContainsAt("5/6", "/", 1);
    MondayIsNotTime();
  }

  lemma MondayIsNotTime()
    ensures !LooksLikeTime("Monday")
  {
    MondayHasNoMarks();
    MondayHasNoDigit();
  }

  lemma MondayHasNoMarks()
    ensures !Contains("Monday", ":") && !Contains("Monday", "AM")
    ensures !Contains("Monday", "PM") && !Contains("Monday", "/")
  {
    assert !Contains("Monday", ":") && !Contains("Monday", "/") by {
      NotContainedByChar("Monday", ":", 0);
      NotContainedByChar("Monday", "/", 0);
    }
    assert !Contains("Monday", "AM") && !Contains("Monday", "PM") by {
      NotContainedByChar("Monday", "AM", 0);
      NotContainedByChar("Monday", "PM", 0);
    }
  }

  lemma MondayHasNoDigit()
    ensures !HasAsciiDigit("Monday")
  {
    forall i | 0 <= i < |"Monday"| ensures !IsAsciiDigit("Monday"[i]) {
    }
  }

  /** `get_norwegian_week` for a given ISO week number. */
  function WeekLabel(week: nat): string {
    "Uke " + NatToString(week)
  }

  /** The replacement text: the current text kept in front, uptime and week appended on lines of their own. */
  function NewText(current: string, tick: U32, week: nat): (t: string)
    ensures current < t
    ensures t[|current|] == '\n'
    ensures t[|t| - 1] != '\0' && IsAsciiDigit(t[|t| - 1])
  {
    var t := current + "\n" + AddedText(tick, week);
    assert t[|t| - 1] == NatToString(week)[|NatToString(week)| - 1];
    t
  }

  /** What the rewrite appends after the line break: the uptime line, a line break, the week line. */
  function AddedText(tick: U32, week: nat): string {
    UPTIME_LABEL + Uptime.HookUptime(tick) + "\n" + WeekLabel(week)
  }

  /**
   * The rewritten text is the lines of the current text followed by an
   * uptime line and a week line, and each of the two reads back as the
   * value it was printed from: the uptime as the span of the tick count's
   * whole seconds, the week as its number.
   */
  lemma NewTextLines(current: string, tick: U32, week: nat)
    requires current == [] || (current[|current| - 1] != '\n' && current[|current| - 1] != '\r')
    ensures Lines(NewText(current, tick, week))
            == (if current == [] then [""] else Lines(current))
               + [UPTIME_LABEL + Uptime.HookUptime(tick), WeekLabel(week)]
    ensures Uptime.Parse(Uptime.HookUptime(tick)) == Some(Uptime.Split(tick / 1000))
    ensures ParseNat(WeekLabel(week)[4..]) == Some((week, ""))
  {
    AddedLines(tick, week);
    LinesAppend(current, AddedText(tick, week));
    AddedLinesReadBack(tick, week);
  }

  /** The two appended lines are printable, so they split back apart. */
  lemma AddedLines(tick: U32, week: nat)
    ensures Lines(AddedText(tick, week)) == [UPTIME_LABEL + Uptime.HookUptime(tick), WeekLabel(week)]
  {
    Uptime.PrintableUptime(tick / 1000);
    PrintableConcat(UPTIME_LABEL, Uptime.HookUptime(tick));
    PrintableDecimal(week);
    PrintableConcat("Uke ", NatToString(week));
    LinesOfTwo(UPTIME_LABEL + Uptime.HookUptime(tick), WeekLabel(week));
  }

  lemma AddedLinesReadBack(tick: U32, week: nat)
    ensures Uptime.Parse(Uptime.HookUptime(tick)) == Some(Uptime.Split(tick / 1000))
    ensures ParseNat(WeekLabel(week)[4..]) == Some((week, ""))
  {
    Uptime.ParseFormat(Uptime.Split(tick / 1000));
    assert WeekLabel(week)[4..] == NatToString(week) + "";
    ParseNatOfRendered(week, "");
  }

  /**
   * `get_window_class_name`: the units `GetClassNameW` copied, decoded;
   * the empty name when it copied none.
   */
  function ClassName(units: seq<U16>): string {
    if |units| > 0 then FromWide(units) else ""
  }

  /** A tooltip window as the hook library queries it. */
  datatype TipWindow = TipWindow(classUnits: seq<U16>, rect: Option<Rect>, textUnits: seq<U16>)

  /** The clock, screen, calendar and `SetWindowTextW` answer seen by one `modify_tooltip_text` call. */
  datatype ModifyEnv = ModifyEnv(now: nat, screenHeight: int, tickCount: U32, week: nat, writeOk: bool)

  /** Why `modify_tooltip_text` left the tooltip alone. */
  datatype Skip = CoolingDown | NotTooltipClass | NotInTaskbar | NotTimeText | WriteFailed

  datatype Outcome = Skipped(reason: Skip) | Written

  /** `LAST_TOOLTIP_UPDATE` and the window text after the call, and what happened. */
  datatype Modified = Modified(lastUpdate: Option<nat>, text: seq<U16>, outcome: Outcome)

  /**
   * `modify_tooltip_text`: the gates run in source order, and only a
   * successful write changes the text and advances the timestamp.
   */
  function ModifyTooltipText(lastUpdate: Option<nat>, w: TipWindow, env: ModifyEnv): (r: Modified)
    ensures r.outcome == Written <==>
              && ShouldUpdate(lastUpdate, env.now)
              && ClassName(w.classUnits) == TOOLTIP_CLASS
              && IsTaskbarArea(w.rect, env.screenHeight)
              && LooksLikeTime(FromWide(w.textUnits))
              && env.writeOk
    ensures !ShouldUpdate(lastUpdate, env.now) ==> r.outcome == Skipped(CoolingDown)
    ensures ShouldUpdate(lastUpdate, env.now) && ClassName(w.classUnits) != TOOLTIP_CLASS ==>
              r.outcome == Skipped(NotTooltipClass)
    ensures ShouldUpdate(lastUpdate, env.now) && ClassName(w.classUnits) == TOOLTIP_CLASS
            && !IsTaskbarArea(w.rect, env.screenHeight) ==>
              r.outcome == Skipped(NotInTaskbar)
    ensures ShouldUpdate(lastUpdate, env.now) && ClassName(w.classUnits) == TOOLTIP_CLASS
            && IsTaskbarArea(w.rect, env.screenHeight) && !LooksLikeTime(FromWide(w.textUnits)) ==>
              r.outcome == Skipped(NotTimeText)
    ensures ShouldUpdate(lastUpdate, env.now) && ClassName(w.classUnits) == TOOLTIP_CLASS
            && IsTaskbarArea(w.rect, env.screenHeight) && LooksLikeTime(FromWide(w.textUnits))
            && !env.writeOk ==>
              r.outcome == Skipped(WriteFailed)
    ensures r.outcome.Skipped? ==> r.lastUpdate == lastUpdate && r.text == w.textUnits
    ensures r.outcome == Written ==>
              && r.lastUpdate == Some(env.now)
              && FromWide(r.text) == NewText(FromWide(w.textUnits), env.tickCount, env.week)
              && FromWide(w.textUnits) < FromWide(r.text)
  {
    if !ShouldUpdate(lastUpdate, env.now) then Modified(lastUpdate, w.textUnits, Skipped(CoolingDown))
    else if ClassName(w.classUnits) != TOOLTIP_CLASS then Modified(lastUpdate, w.textUnits, Skipped(NotTooltipClass))
    else if !IsTaskbarArea(w.rect, env.screenHeight) then Modified(lastUpdate, w.textUnits, Skipped(NotInTaskbar))
    else
      var current := FromWide(w.textUnits);
      if !LooksLikeTime(current) then Modified(lastUpdate, w.textUnits, Skipped(NotTimeText))
      else
        var newText := NewText(current, env.tickCount, env.week);
        // `SetWindowTextW` takes `ToWide(newText)`; the window keeps the units before the terminator
        ToWideLayout(newText);
        if !env.writeOk then Modified(lastUpdate, w.textUnits, Skipped(WriteFailed))
        else
          FromWideEncoded(newText);
          Modified(Some(env.now), EncodeUtf16(newText), Written)
  }

  /** Within 500 ms of a successful write every further call is refused by the cooldown. */
  lemma CooldownAfterWrite(lastUpdate: Option<nat>, w: TipWindow, env: ModifyEnv, w2: TipWindow, env2: ModifyEnv)
    requires ModifyTooltipText(lastUpdate, w, env).outcome == Written
    requires env.now <= env2.now < env.now + COOLDOWN_MS
    ensures ModifyTooltipText(ModifyTooltipText(lastUpdate, w, env).lastUpdate, w2, env2).outcome
            == Skipped(CoolingDown)
  {
  }

  /**
   * The appended text still passes every filter, so once the cooldown is
   * over the same tooltip is extended a second time, keeping all earlier text
   * in front.
   */
  lemma AppendsAgainAfterCooldown(lastUpdate: Option<nat>, w: TipWindow, env: ModifyEnv, env2: ModifyEnv)
    requires ModifyTooltipText(lastUpdate, w, env).outcome == Written
    requires env2.now >= env.now + COOLDOWN_MS && env2.screenHeight == env.screenHeight && env2.writeOk
    ensures var r1 := ModifyTooltipText(lastUpdate, w, env);
            var r2 := ModifyTooltipText(r1.lastUpdate, w.(textUnits := r1.text), env2);
            && r2.outcome == Written
            && FromWide(w.textUnits) < FromWide(r1.text) < FromWide(r2.text)
  {
    var r1 := ModifyTooltipText(lastUpdate, w, env);
    var t := FromWide(r1.text);
    EndingInDigitLooksLikeTime(t);
  }

  /** What `cbt_hook_proc` does: whether a delayed modification is scheduled, and the hook handle the event is forwarded with. */
  datatype CbtAction = CbtAction(scheduleModify: bool, nextHook: Handle)

  /** `cbt_hook_proc`; `classUnits` is what `GetClassNameW` reports for the window in `wparam`. */
  function CbtHookProc(code: int, classUnits: seq<U16>): (r: CbtAction)
    ensures r.nextHook == NULL
    ensures r.scheduleModify ==> code == HCBT_CREATEWND
  {
    if code == HCBT_CREATEWND && ClassName(classUnits) == TOOLTIP_CLASS then CbtAction(true, NULL)
    else CbtAction(false, NULL)
  }

  /**
   * The hook's class filter and the mutator's agree: a created window is
   * scheduled exactly when the mutator's class gate would let it through.
   */
  lemma CbtAgreesWithModify(classUnits: seq<U16>, w: TipWindow, env: ModifyEnv)
    requires w.classUnits == classUnits && ShouldUpdate(None, env.now)
    ensures CbtHookProc(HCBT_CREATEWND, classUnits).scheduleModify <==>
              ModifyTooltipText(None, w, env).outcome != Skipped(NotTooltipClass)
  {
  }

  /** Other hook codes never schedule anything. */
  lemma CbtIgnoresOtherCodes(code: int, classUnits: seq<U16>)
    requires code != HCBT_CREATEWND
    ensures !CbtHookProc(code, classUnits).scheduleModify
  {
  }

  /**
   * `HOOK_INSTALLED` and `HOOK_HANDLE`, plus the set of CBT hooks the library
   * has registered with the system and not yet removed.
   */
  datatype HookState = HookState(installed: bool, handle: Handle, live: set<Handle>)

  const FRESH := HookState(false, NULL, {})

  /** The flag says exactly whether a handle is held. */
  predicate Wf(s: HookState) {
    s.installed <==> s.handle != NULL
  }

  /** The only hook alive in the system is the one held. */
  predicate Tracks(s: HookState) {
    s.live == if s.handle != NULL then {s.handle} else {}
  }

  /** `InstallHook`; `osHook` is what `SetWindowsHookExW` returns. The second component is the `BOOL` result. */
  function InstallHook(s: HookState, osHook: Handle): (r: (HookState, int))
    ensures s.installed ==> r == (s, 1)
    ensures r.1 == 0 <==> !s.installed && osHook == NULL
    ensures r.1 == 0 ==> r.0 == s
    ensures r.1 == 1 ==> r.0.installed && (r.0.handle != NULL || s.installed)
    ensures !s.installed && osHook != NULL ==> r == (HookState(true, osHook, s.live + {osHook}), 1)
    ensures r.0.live == s.live || (!s.installed && r.0.live == s.live + {osHook})
    ensures Wf(s) ==> Wf(r.0)
    ensures Wf(s) && Tracks(s) ==> Tracks(r.0) && |r.0.live| <= 1
  {
    if s.installed then (s, 1)
    else if osHook != NULL then (HookState(true, osHook, s.live + {osHook}), 1)
    else (s, 0)
  }

  /** `UninstallHook`; `unhookOk` is whether `UnhookWindowsHookEx` succeeds. */
  function UninstallHook(s: HookState, unhookOk: bool): (r: (HookState, int))
    ensures !s.installed ==> r == (s, 1)
    // a successful unhook forgets the handle and removes the hook from the system
    ensures s.installed && s.handle != NULL && unhookOk ==> r == (HookState(false, NULL, s.live - {s.handle}), 1)
    // with no handle held there is nothing to unhook: only the flag is cleared
    ensures s.installed && s.handle == NULL ==> r == (s.(installed := false), 1)
    ensures r.1 == 0 <==> s.installed && s.handle != NULL && !unhookOk
    ensures r.1 == 0 ==> r.0 == s
    ensures r.1 == 1 ==> !r.0.installed
    ensures r.1 == 1 && Wf(s) ==> r.0.handle == NULL
    ensures r.0.live <= s.live
    ensures Wf(s) ==> Wf(r.0)
    ensures Wf(s) && Tracks(s) ==> Tracks(r.0)
  {
    if !s.installed then (s, 1)
    else if s.handle != NULL then
      if unhookOk then (HookState(false, NULL, s.live - {s.handle}), 1) else (s, 0)
    else (s.(installed := false), 1)
  }

  /** Installing again, whatever the system would answer, changes nothing and reports success. */
  lemma InstallIdempotent(s: HookState, h1: Handle, h2: Handle)
    requires InstallHook(s, h1).1 == 1
    ensures InstallHook(InstallHook(s, h1).0, h2) == (InstallHook(s, h1).0, 1)
  {
  }

  /** Uninstalling after a successful uninstall changes nothing and reports success. */
  lemma UninstallIdempotent(s: HookState, ok1: bool, ok2: bool)
    requires UninstallHook(s, ok1).1 == 1
    ensures UninstallHook(UninstallHook(s, ok1).0, ok2) == (UninstallHook(s, ok1).0, 1)
  {
  }

  /** A successful uninstall undoes a successful install. */
  lemma UninstallUndoesInstall(s: HookState, osHook: Handle)
    requires Wf(s) && Tracks(s) && !s.installed && osHook != NULL
    ensures UninstallHook(InstallHook(s, osHook).0, true) == (s, 1)
  {
  }
}

=== FILE: layout.dfy ===
/**
 * Text and geometry of the custom overlay tooltip of `show_tooltip`
 * (xclock/src/lib.rs): the tooltip is sized from its text's line count and
 * longest line and placed beside the cursor, flipped left when it would run
 * off the right edge and below when it would run off the top.
 */
module Layout {
  import opened Text
  import opened Decimal
  import Uptime

  const MIN_WIDTH := 250
  const MIN_HEIGHT := 60
  const CHAR_WIDTH := 8
  const LINE_HEIGHT := 16
  const PADDING := 20

  /** The body of `generate_tooltip_text`: uptime, then the ISO week and its year. */
  function OverlayText(uptimeSecs: nat, week: nat, year: int): string {
    UptimeLine(uptimeSecs) + "\n" + WeekLine(week, year)
  }

  function UptimeLine(uptimeSecs: nat): string {
    "Uptime: " + Uptime.UptimeText(uptimeSecs)
  }

  function WeekLine(week: nat, year: int): string {
    "Week " + NatToString(week) + ", " + IntToString(year) + " (NO)"
  }

  lemma PrintableLines(secs: nat, week: nat, year: int)
    ensures Printable(UptimeLine(secs)) && Printable(WeekLine(week, year))
  {
    PrintableUptimeLine(secs);
    PrintableWeekLine(week, year);
  }

  lemma PrintableUptimeLine(secs: nat)
    ensures Printable(UptimeLine(secs))
  {
    Uptime.PrintableUptime(secs);
    PrintableConcat("Uptime: ", Uptime.UptimeText(secs));
  }

  lemma PrintableYear(year: int)
    ensures Printable(IntToString(year))
  {
    PrintableDecimal(if year < 0 then -year else year);
    if year < 0 {
      PrintableConcat("-", NatToString(-year));
    }
  }

  lemma PrintableWeekLine(week: nat, year: int)
    ensures Printable(WeekLine(week, year))
  {
    var w := NatToString(week);
    var y := IntToString(year);
    PrintableDecimal(week);
    PrintableYear(year);
    PrintableConcat("Week ", w);
    PrintableConcat("Week " + w, ", ");
    PrintableConcat("Week " + w + ", ", y);
    PrintableConcat("Week " + w + ", " + y, " (NO)");
  }

  /** Longest line in UTF-8 bytes, 0 when there are no lines (`max().unwrap_or(0)`). */
  function MaxLineLen(ls: seq<string>): (n: nat)
    ensures forall i :: 0 <= i < |ls| ==> Utf8Len(ls[i]) <= n
    ensures ls == [] ==> n == 0
    ensures ls != [] ==> exists i :: 0 <= i < |ls| && Utf8Len(ls[i]) == n
  {
    if ls == [] then 0
    else
      var rest := MaxLineLen(ls[1..]);
      assert forall i :: 1 <= i < |ls| ==> ls[i] == ls[1..][i - 1];
      if Utf8Len(ls[0]) >= rest then Utf8Len(ls[0]) else rest
  }

  function Max(a: int, b: int): int {
    if a >= b then a else b
  }

  datatype Size = Size(width: int, height: int)

  /**
   * `tooltip_width` and `tooltip_height`: every line fits at eight pixels per
   * byte, every line gets sixteen pixels plus padding, and neither dimension
   * is larger than that or its minimum requires.
   */
  function TooltipSize(text: string): (sz: Size)
    ensures sz.width >= MIN_WIDTH && sz.height >= MIN_HEIGHT
    ensures forall i :: 0 <= i < |Lines(text)| ==> CHAR_WIDTH * Utf8Len(Lines(text)[i]) <= sz.width
    ensures sz.height >= |Lines(text)| * LINE_HEIGHT + PADDING
    ensures sz.width == MIN_WIDTH
            || exists i :: 0 <= i < |Lines(text)| && CHAR_WIDTH * Utf8Len(Lines(text)[i]) == sz.width
    ensures sz.height == MIN_HEIGHT || sz.height == |Lines(text)| * LINE_HEIGHT + PADDING
  {
    var ls := Lines(text);
    Size(Max(MIN_WIDTH, MaxLineLen(ls) * CHAR_WIDTH), Max(MIN_HEIGHT, |ls| * LINE_HEIGHT + PADDING))
  }

  /**
   * The overlay text always has exactly two lines, so the tooltip is always
   * the minimum height, and its width follows the longer line.
   */
  lemma OverlaySize(secs: nat, week: nat, year: int)
    ensures Lines(OverlayText(secs, week, year)) == [UptimeLine(secs), WeekLine(week, year)]
    ensures TooltipSize(OverlayText(secs, week, year))
            == Size(Max(MIN_WIDTH, CHAR_WIDTH * Max(|UptimeLine(secs)|, |WeekLine(week, year)|)), MIN_HEIGHT)
  {
    var a := UptimeLine(secs);
    var b := WeekLine(week, year);
    PrintableLines(secs, week, year);
    LinesOfTwo(a, b);
    SizeOfTwo(a, b);
  }

  /** The size for two printable ASCII lines. */
  lemma SizeOfTwo(a: string, b: string)
    requires Printable(a) && Printable(b)
    ensures var ls := [a, b];
            Max(MIN_WIDTH, MaxLineLen(ls) * CHAR_WIDTH) == Max(MIN_WIDTH, CHAR_WIDTH * Max(|a|, |b|))
            && Max(MIN_HEIGHT, |ls| * LINE_HEIGHT + PADDING) == MIN_HEIGHT
  {
    AsciiUtf8Len(a);
    AsciiUtf8Len(b);
    var ls := [a, b];
    assert ls[1..] == [b];
    assert MaxLineLen(ls) == Max(|a|, |b|);
  }

  datatype Placement = Placement(x: int, y: int)

  /** Tooltip position for cursor (`cx`, `cy`): right of and above the cursor unless that leaves the screen. */
  function Position(cx: int, cy: int, sz: Size, screenWidth: int): (p: Placement)
    ensures cx + 15 + sz.width <= screenWidth ==> p.x == cx + 15 && p.x + sz.width <= screenWidth
    ensures cx + 15 + sz.width > screenWidth ==> p.x + sz.width + 15 == cx
    ensures cy - sz.height - 10 >= 0 ==> p.y == cy - sz.height - 10 && p.y >= 0
    ensures cy - sz.height - 10 < 0 ==> p.y == cy + 25
    // a tooltip of non-negative size never lies under the cursor
    ensures sz.width >= 0 ==> cx < p.x || p.x + sz.width < cx
    ensures sz.height >= 0 ==> cy < p.y || p.y + sz.height < cy
  {
    var x := if cx + 15 + sz.width > screenWidth then cx - sz.width - 15 else cx + 15;
    var y := if cy - sz.height - 10 < 0 then cy + 25 else cy - sz.height - 10;
    Placement(x, y)
  }
}

=== FILE: lifecycle.dfy ===
/**
 * The library-backed monitor of xclock/src/lib_new.rs: `RUNNING`, the
 * handle of the loaded hook library and the library's own hook state, with
 * `load_hook_dll`, `unload_hook_dll`, `call_dll_function`,
 * `start_monitoring`, `stop_monitoring` and `is_running` as steps over them.
 * `LoadLibraryW`, `GetProcAddress` and the system's hook answers are
 * parameters.
 */
module Lifecycle {
  import opened Win
  import HookDll

  const INSTALL_EXPORT := "InstallHook"
  const UNINSTALL_EXPORT := "UninstallHook"

  /**
   * `RUNNING`, `HOOK_DLL`, the names the loaded library exports, and the
   * statics of the loaded library. Unloading the library discards its
   * statics; hooks it registered with the system stay in `dll.live`.
   */
  datatype Monitor = Monitor(running: bool, library: Handle, exports: set<string>, dll: HookDll.HookState)

  /** What the system answers: `LoadLibraryW`, the exports of the file, `SetWindowsHookExW`, `UnhookWindowsHookEx`. */
  datatype DllEnv = DllEnv(loadResult: Handle, exports: set<string>, osHook: Handle, unhookOk: bool)

  const INITIAL := Monitor(false, NULL, {}, HookDll.FRESH)

  /** No library is held, so nothing of one is remembered. */
  predicate Unloaded(m: Monitor) {
    m.library == NULL && m.exports == {} && !m.dll.installed && m.dll.handle == NULL
  }

  /** The monitor's invariant: running needs an installed hook in a loaded library. */
  predicate Wf(m: Monitor) {
    && HookDll.Wf(m.dll)
    && (m.running ==> m.library != NULL && m.dll.installed)
    && (m.library == NULL ==> Unloaded(m))
  }

  /** `load_hook_dll`; the second component is whether it returned `Ok`. */
  function LoadHookDll(m: Monitor, loadResult: Handle, exports: set<string>): (r: (Monitor, bool))
    ensures m.library != NULL ==> r == (m, true)
    ensures m.library == NULL && loadResult == NULL ==> r == (m, false)
    // a successful load stores the library, whose fresh statics hold no hook
    ensures m.library == NULL && loadResult != NULL ==>
              && r.1 && r.0.library == loadResult && r.0.exports == exports
              && !r.0.dll.installed && r.0.dll.handle == NULL
    ensures r.1 <==> r.0.library != NULL
    ensures r.0.running == m.running && r.0.dll.live == m.dll.live
    ensures Wf(m) ==> Wf(r.0)
  {
    if m.library != NULL then (m, true)
    else if loadResult == NULL then (m, false)
    else (m.(library := loadResult, exports := exports, dll := HookDll.HookState(false, NULL, m.dll.live)), true)
  }

  /** `unload_hook_dll` */
  function UnloadHookDll(m: Monitor): (r: Monitor)
    ensures r.library == NULL
    ensures Wf(m) ==> Unloaded(r)
    ensures r.running == m.running && r.dll.live == m.dll.live
    ensures Unloaded(m) ==> r == m
  {
    if m.library != NULL then m.(library := NULL, exports := {}, dll := HookDll.HookState(false, NULL, m.dll.live))
    else m
  }

  /** Unloading undoes loading. */
  lemma UnloadUndoesLoad(m: Monitor, loadResult: Handle, exports: set<string>)
    requires Unloaded(m) && loadResult != NULL
    ensures UnloadHookDll(LoadHookDll(m, loadResult, exports).0) == m
  {
  }

  datatype CallError =
    | NotLoaded
    | InteriorNul                     // `CString::new` refuses a name with a NUL in it
    | FunctionNotFound(name: string)  // `GetProcAddress` returned null
    | UnknownFunction(name: string)   // exported, but neither of the two known functions

  datatype CallResult = Returned(value: int) | CallFailed(error: CallError)

  /** `call_dll_function`: the checks run in source order; a known export runs against the library's state. */
  function CallDllFunction(m: Monitor, name: string, env: DllEnv): (r: (Monitor, CallResult))
    ensures m.library == NULL ==> r == (m, CallFailed(NotLoaded))
    ensures m.library != NULL ==> r.1 != CallFailed(NotLoaded)
    ensures r.1 == CallFailed(InteriorNul) <==> m.library != NULL && '\0' in name
    ensures r.1 == CallFailed(UnknownFunction(name)) <==>
              && m.library != NULL && '\0' !in name && name in m.exports
              && name != INSTALL_EXPORT && name != UNINSTALL_EXPORT
    ensures r.1.CallFailed? ==> r.0 == m
    ensures r.1.Returned? <==> m.library != NULL && name in m.exports && (name == INSTALL_EXPORT || name == UNINSTALL_EXPORT)
    ensures r.1 == CallFailed(FunctionNotFound(name)) <==> m.library != NULL && '\0' !in name && name !in m.exports
    ensures r.0.running == m.running && r.0.library == m.library && r.0.exports == m.exports
    ensures r.1.Returned? ==> r.1.value == 0 || r.1.value == 1
    // a known export runs against the library's state and its `BOOL` is passed back
    ensures r.1.Returned? && name == INSTALL_EXPORT ==>
              var (d, b) := HookDll.InstallHook(m.dll, env.osHook);
              r == (m.(dll := d), Returned(b))
    ensures r.1.Returned? && name == UNINSTALL_EXPORT ==>
              var (d, b) := HookDll.UninstallHook(m.dll, env.unhookOk);
              r == (m.(dll := d), Returned(b))
    ensures HookDll.Wf(m.dll) ==> HookDll.Wf(r.0.dll)
  {
    if m.library == NULL then (m, CallFailed(NotLoaded))
    else if '\0' in name then (m, CallFailed(InteriorNul))
    else if name !in m.exports then (m, CallFailed(FunctionNotFound(name)))
    else if name == INSTALL_EXPORT then
      var (d, b) := HookDll.InstallHook(m.dll, env.osHook);
      (m.(dll := d), Returned(b))
    else if name == UNINSTALL_EXPORT then
      var (d, b) := HookDll.UninstallHook(m.dll, env.unhookOk);
      (m.(dll := d), Returned(b))
    else (m, CallFailed(UnknownFunction(name)))
  }

  datatype MonitorError = AlreadyRunning | LoadFailed | CallError(error: CallError) | InstallFailed

  datatype MonitorResult = Ok | Err(error: MonitorError)

  /** `start_monitoring` */
  function StartMonitoring(m: Monitor, env: DllEnv): (r: (Monitor, MonitorResult))
    ensures m.running ==> r == (m, Err(AlreadyRunning))
    ensures r.1 == Err(AlreadyRunning) <==> m.running
    // a loaded library whose `InstallHook` ran and returned 0
    ensures var m1 := LoadHookDll(m, env.loadResult, env.exports).0;
            r.1 == Err(InstallFailed) <==>
              && !m.running && m1.library != NULL && INSTALL_EXPORT in m1.exports
              && !m1.dll.installed && env.osHook == NULL
    // success keeps everything the load and the install produced, and sets the flag
    ensures r.1 == Ok ==>
              r.0 == CallDllFunction(LoadHookDll(m, env.loadResult, env.exports).0, INSTALL_EXPORT, env).0.(running := true)
    ensures !m.running ==> (r.0.running <==> r.1 == Ok)
    ensures r.1 == Ok ==> r.0.library != NULL && r.0.dll.installed
    // success depends on what the system answers: the load, the export and the hook
    ensures !m.running && m.library == NULL ==>
              (r.1 == Ok <==> env.loadResult != NULL && INSTALL_EXPORT in env.exports && env.osHook != NULL)
    ensures !m.running && m.library != NULL ==>
              (r.1 == Ok <==> INSTALL_EXPORT in m.exports && (m.dll.installed || env.osHook != NULL))
    ensures r.1 == Ok ==> r.0.library == if m.library != NULL then m.library else env.loadResult
    ensures r.1 == Err(LoadFailed) <==> !m.running && m.library == NULL && env.loadResult == NULL
    ensures r.1 == Err(CallError(FunctionNotFound(INSTALL_EXPORT))) <==>
              !m.running && LoadHookDll(m, env.loadResult, env.exports).0.library != NULL
              && INSTALL_EXPORT !in LoadHookDll(m, env.loadResult, env.exports).0.exports
    ensures r.1 == Err(InstallFailed) ==> r.0.library != NULL && !r.0.running
    ensures r.1 == Err(LoadFailed) ==> r.0 == m
    ensures Wf(m) ==> Wf(r.0)
  {
    if m.running then (m, Err(AlreadyRunning))
    else
      var (m1, loaded) := LoadHookDll(m, env.loadResult, env.exports);
      if !loaded then (m1, Err(LoadFailed))
      else
        var (m2, res) := CallDllFunction(m1, INSTALL_EXPORT, env);
        if res.CallFailed? then (m2, Err(CallError(res.error)))
        else if res.value == 0 then (m2, Err(InstallFailed))
        else (m2.(running := true), Ok)
  }

  /** `stop_monitoring`: the result of `UninstallHook` is ignored and the library is unloaded regardless. */
  function StopMonitoring(m: Monitor, env: DllEnv): (r: Monitor)
    ensures !r.running && r.library == NULL
    ensures r.dll.live <= m.dll.live
    // `UninstallHook` is attempted whenever a library exporting it is held
    ensures m.library != NULL && UNINSTALL_EXPORT in m.exports ==>
              r.dll.live == HookDll.UninstallHook(m.dll, env.unhookOk).0.live
    ensures m.library == NULL || UNINSTALL_EXPORT !in m.exports ==> r.dll.live == m.dll.live
    ensures Wf(m) ==> Wf(r) && Unloaded(r)
  {
    var m1 := m.(running := false);
    if m1.library != NULL then UnloadHookDll(CallDllFunction(m1, UNINSTALL_EXPORT, env).0) else m1
  }

  function IsRunning(m: Monitor): bool {
    m.running
  }

  /** Stopping twice is stopping once, whatever the system answers the second time. */
  lemma StopIdempotent(m: Monitor, env: DllEnv, env2: DllEnv)
    ensures StopMonitoring(StopMonitoring(m, env), env2) == StopMonitoring(m, env)
  {
  }

  /** Starting fails loudly while running and leaves everything as it was. */
  lemma StartWhileRunningFails(m: Monitor, env: DllEnv, env2: DllEnv)
    requires StartMonitoring(m, env).1 == Ok
    ensures var m1 := StartMonitoring(m, env).0;
            StartMonitoring(m1, env2) == (m1, Err(AlreadyRunning))
  {
  }

  /**
   * From a fresh process, starting succeeds exactly when the library loads,
   * exports `InstallHook` and the system installs the hook; stopping with a
   * successful unhook then returns to the fresh state.
   */
  lemma StartStopRoundTrip(env: DllEnv, env2: DllEnv)
    requires env2.unhookOk
    ensures StartMonitoring(INITIAL, env).1 == Ok <==>
              env.loadResult != NULL && INSTALL_EXPORT in env.exports && env.osHook != NULL
    ensures StartMonitoring(INITIAL, env).1 == Ok && UNINSTALL_EXPORT in env.exports ==>
              StopMonitoring(StartMonitoring(INITIAL, env).0, env2) == INITIAL
  {
  }

  /**
   * A failed unhook is ignored by `stop_monitoring`: the monitor reports
   * stopped and the library is gone, yet its hook is still registered, and
   * a later start registers a second one.
   */
  lemma FailedUnhookLeavesHook()
    ensures var env := DllEnv(5, {INSTALL_EXPORT, UNINSTALL_EXPORT}, 9, false);
            var started := StartMonitoring(INITIAL, env).0;
            var stopped := StopMonitoring(started, env);
            var restarted := StartMonitoring(stopped, env.(osHook := 11));
            && !IsRunning(stopped) && stopped.library == NULL && stopped.dll.live == {9}
            && restarted.1 == Ok && restarted.0.dll.live == {9, 11}
  {
  }
}

=== FILE: overlay.dfy ===
/**
 * The overlay-tooltip engine of xclock/src/lib.rs: the process-wide state
 * (`HOOK_HANDLE`, `TOOLTIP_WINDOW`, `TOOLTIP_VISIBLE`, `CLOCK_WINDOWS`,
 * `RUNNING`, `LAST_MOUSE_POS` and the registered window class) as one value,
 * with `show_tooltip`, `hide_tooltip`, `mouse_hook_proc`,
 * `start_clock_hook` and `stop_clock_hook` as steps over it. Every OS
 * answer is a parameter.
 */
module Overlay {
  import opened Win
  import opened HitTest
  import Discovery
  import Layout

  /** `TOOLTIP_VISIBLE` and `TOOLTIP_WINDOW`. */
  datatype Tooltip = Tooltip(visible: bool, window: Handle)

  /** The flag and the window agree: visible exactly when a window is held. */
  predicate Consistent(t: Tooltip) {
    t.visible <==> t.window != NULL
  }

  /** Inputs `show_tooltip` reads from the system: clock, calendar, screen, and `CreateWindowExW`'s answer. */
  datatype ShowEnv = ShowEnv(uptimeSecs: nat, week: nat, year: int, screenWidth: int, created: Handle)

  /** The window `show_tooltip` asks `CreateWindowExW` for. */
  datatype Request = Request(pos: Layout.Placement, size: Layout.Size)

  /**
   * `show_tooltip`: nothing happens while a tooltip is visible or its window
   * still exists; otherwise a window is requested, and the state records it
   * only if creation succeeded.
   */
  function ShowTooltip(t: Tooltip, cx: int, cy: int, env: ShowEnv): (r: (Tooltip, Option<Request>))
    ensures t.visible || t.window != NULL ==> r == (t, None)
    // otherwise the window is sized for the overlay text and placed beside the cursor
    ensures !t.visible && t.window == NULL ==>
              var size := Layout.TooltipSize(Layout.OverlayText(env.uptimeSecs, env.week, env.year));
              r.1 == Some(Request(Layout.Position(cx, cy, size, env.screenWidth), size))
    // a created window is recorded as the visible tooltip; a failed creation changes nothing
    ensures !t.visible && t.window == NULL && env.created != NULL ==> r.0 == Tooltip(true, env.created)
    ensures env.created == NULL ==> r.0 == t
    ensures r.0 != t ==> r.0 == Tooltip(true, env.created) && env.created != NULL
    ensures Consistent(t) ==> Consistent(r.0)
    ensures r.1.Some? ==>
              var req := r.1.value;
              && req.size.width >= Layout.MIN_WIDTH && req.size.height == Layout.MIN_HEIGHT
              && (cx < req.pos.x || req.pos.x + req.size.width < cx)
              && (cy < req.pos.y || req.pos.y + req.size.height < cy)
  {
    if t.visible || t.window != NULL then (t, None)
    else
      var text := Layout.OverlayText(env.uptimeSecs, env.week, env.year);
      var size := Layout.TooltipSize(text);
      Layout.OverlaySize(env.uptimeSecs, env.week, env.year);
      var req := Request(Layout.Position(cx, cy, size, env.screenWidth), size);
      if env.created != NULL then (Tooltip(true, env.created), Some(req)) else (t, Some(req))
  }

  /** `hide_tooltip`: destroys the held window, if any, and clears both fields. */
  function HideTooltip(t: Tooltip): (r: Tooltip)
    ensures r.window == NULL
    ensures t.window != NULL ==> !r.visible
    ensures t.window == NULL ==> r == t
  {
    if t.window != NULL then Tooltip(false, NULL) else t
  }

  /** Hiding twice is hiding once; from a consistent state it always ends hidden. */
  lemma HideIdempotent(t: Tooltip)
    ensures HideTooltip(HideTooltip(t)) == HideTooltip(t)
    ensures Consistent(t) ==> HideTooltip(t) == Tooltip(false, NULL)
  {
  }

  datatype MouseMsg =
    | MouseMove(pt: Point)
    | LButtonDown
    | RButtonDown
    | MButtonDown
    | OtherMessage

  /** All of the program's process-wide state. */
  datatype Engine = Engine(
    hook: Handle,                    // HOOK_HANDLE
    tooltip: Tooltip,                // TOOLTIP_VISIBLE, TOOLTIP_WINDOW
    targets: Option<seq<Handle>>,    // CLOCK_WINDOWS, set at most once
    running: bool,                   // RUNNING
    lastMouse: Option<Point>,        // LAST_MOUSE_POS, set at most once
    classRegistered: bool)           // the "ClockHoverTooltip" window class

  /** What the mouse hook sees: the windows before and after its 100 ms delay, and the show inputs. */
  datatype MouseEnv = MouseEnv(before: Desktop, after: Desktop, show: ShowEnv)

  /**
   * `mouse_hook_proc`. The second component is the hook handle the event is
   * forwarded with through `CallNextHookEx`, which happens on every path.
   */
  function MouseHookProc(e: Engine, code: int, msg: MouseMsg, env: MouseEnv): (r: (Engine, Handle))
    ensures r.1 == e.hook
    ensures r.0.hook == e.hook && r.0.targets == e.targets && r.0.running == e.running
    ensures r.0.classRegistered == e.classRegistered
    ensures code < 0 ==> r.0 == e
    ensures Consistent(e.tooltip) ==> Consistent(r.0.tooltip)
    ensures code >= 0 && msg.OtherMessage? ==> r.0 == e
    ensures code >= 0 && (msg.LButtonDown? || msg.RButtonDown? || msg.MButtonDown?) ==>
              r.0 == e.(tooltip := HideTooltip(e.tooltip))
    // a move updates the stored position once one has been stored
    ensures code >= 0 && msg.MouseMove? ==> r.0.lastMouse == if e.lastMouse.Some? then Some(msg.pt) else None
    ensures code >= 0 && msg.MouseMove? && !InAnyClock(e.targets, env.before, msg.pt.x, msg.pt.y) ==>
              r.0.tooltip == HideTooltip(e.tooltip)
    // the tooltip is shown when the cursor is over a clock both before and after the delay ...
    ensures code >= 0 && msg.MouseMove? && !e.tooltip.visible
            && InAnyClock(e.targets, env.before, msg.pt.x, msg.pt.y)
            && InAnyClock(e.targets, env.after, msg.pt.x, msg.pt.y) ==>
              r.0.tooltip == ShowTooltip(e.tooltip, msg.pt.x, msg.pt.y, env.show).0
    ensures code >= 0 && msg.MouseMove? && !e.tooltip.visible && e.tooltip.window == NULL
            && InAnyClock(e.targets, env.before, msg.pt.x, msg.pt.y)
            && InAnyClock(e.targets, env.after, msg.pt.x, msg.pt.y)
            && env.show.created != NULL ==>
              r.0.tooltip == Tooltip(true, env.show.created)
    // ... and left alone while it is already visible or the cursor left during the delay
    ensures code >= 0 && msg.MouseMove? && InAnyClock(e.targets, env.before, msg.pt.x, msg.pt.y)
            && (e.tooltip.visible || !InAnyClock(e.targets, env.after, msg.pt.x, msg.pt.y)) ==>
              r.0.tooltip == e.tooltip
    // a tooltip window appears only while the cursor stays over a clock across the delay
    ensures r.0.tooltip.window != NULL && r.0.tooltip != e.tooltip ==>
              && code >= 0 && msg.MouseMove?
              && InAnyClock(e.targets, env.before, msg.pt.x, msg.pt.y)
              && InAnyClock(e.targets, env.after, msg.pt.x, msg.pt.y)
  {
    MouseStep(e, code, msg, env, if msg.MouseMove? then msg.pt else Point(0, 0))
  }

  /**
   * One event of the mouse hook, with `recheck` the point tested against the
   * windows after the delay; `mouse_hook_proc` passes the event's own point.
   */
  function MouseStep(e: Engine, code: int, msg: MouseMsg, env: MouseEnv, recheck: Point): (r: (Engine, Handle))
    ensures r.1 == e.hook
    ensures r.0.hook == e.hook && r.0.targets == e.targets && r.0.running == e.running
    ensures Consistent(e.tooltip) ==> Consistent(r.0.tooltip)
  {
    if code < 0 then (e, e.hook)
    else
      match msg
      case MouseMove(pt) =>
        var e1 := e.(lastMouse := if e.lastMouse.Some? then Some(pt) else None);
        if InAnyClock(e.targets, env.before, pt.x, pt.y) then
          if !e1.tooltip.visible && InAnyClock(e.targets, env.after, recheck.x, recheck.y) then
            (e1.(tooltip := ShowTooltip(e1.tooltip, pt.x, pt.y, env.show).0), e.hook)
          else (e1, e.hook)
        else (e1.(tooltip := HideTooltip(e1.tooltip)), e.hook)
      case OtherMessage => (e, e.hook)
      case _ => (e.(tooltip := HideTooltip(e.tooltip)), e.hook)
  }

  /**
   * The mouse hook with the check after the delay done as its comment says,
   * against where the cursor is once the delay is over (`cursorAfter`, what
   * `GetCursorPos` would report) rather than the event's point.
   */
  function MouseHookProcRechecked(e: Engine, code: int, msg: MouseMsg, env: MouseEnv, cursorAfter: Point)
    : (r: (Engine, Handle))
    ensures r.1 == e.hook
    ensures code < 0 ==> r.0 == e
    ensures Consistent(e.tooltip) ==> Consistent(r.0.tooltip)
    // a tooltip window appears only when the cursor is still over a clock after the delay
    ensures r.0.tooltip.window != NULL && r.0.tooltip != e.tooltip ==>
              && code >= 0 && msg.MouseMove?
              && InAnyClock(e.targets, env.before, msg.pt.x, msg.pt.y)
              && InAnyClock(e.targets, env.after, cursorAfter.x, cursorAfter.y)
    ensures code >= 0 && msg.MouseMove? && !e.tooltip.visible && e.tooltip.window == NULL
            && InAnyClock(e.targets, env.before, msg.pt.x, msg.pt.y)
            && InAnyClock(e.targets, env.after, cursorAfter.x, cursorAfter.y)
            && env.show.created != NULL ==>
              r.0.tooltip == Tooltip(true, env.show.created)
  {
    MouseStep(e, code, msg, env, cursorAfter)
  }

  /** When the cursor has not moved during the delay, the corrected hook and the original agree. */
  lemma RecheckedAgreesWhenCursorStays(e: Engine, code: int, pt: Point, env: MouseEnv)
    ensures MouseHookProcRechecked(e, code, MouseMove(pt), env, pt) == MouseHookProc(e, code, MouseMove(pt), env)
  {
  }

  /**
   * As written, the check after the delay tests the event's point again, so
   * it notices only the clock windows moving: were the cursor off the clock
   * by the end of the delay, the tooltip would still show, where the
   * corrected hook shows none.
   */
  lemma StaleRecheckShowsAfterLeaving()
    ensures var desktop := map[1 := WindowInfo("ClockWClass", Some(Rect(0, 0, 100, 40)))];
            var e := Engine(7, Tooltip(false, NULL), Some([1]), true, Some(Point(0, 0)), true);
            var env := MouseEnv(desktop, desktop, ShowEnv(300, 12, 2024, 1920, 5));
            && !InAnyClock(e.targets, desktop, 500, 500)
            && MouseHookProc(e, 0, MouseMove(Point(50, 20)), env).0.tooltip == Tooltip(true, 5)
            && MouseHookProcRechecked(e, 0, MouseMove(Point(50, 20)), env, Point(500, 500)).0.tooltip
               == Tooltip(false, NULL)
  {
    ClockClassesUseExactRect();
    var desktop := map[1 := WindowInfo("ClockWClass", Some(Rect(0, 0, 100, 40)))];
    var targets: seq<Handle> := [1];
    assert Matches(desktop, targets[0], 50, 20);
    assert !Matches(desktop, targets[0], 500, 500);
  }

  datatype StartError = NoClockWindows | ClassRegistrationFailed | HookInstallFailed

  datatype StartResult = Started | StartFailed(error: StartError)

  /**
   * `start_clock_hook`. `registerOk` is whether `RegisterClassW` would succeed
   * for a new class; registering a class that is already registered fails.
   * `hookResult` is what `SetWindowsHookExW` returns.
   */
  function StartClockHook(e: Engine, sh: Discovery.Shell, registerOk: bool, hookResult: Handle)
    : (r: (Engine, StartResult))
    // both cells are filled at most once: the first start stores the origin and the found windows
    ensures r.0.lastMouse == if e.lastMouse.None? then Some(Point(0, 0)) else e.lastMouse
    ensures e.targets.None? ==> r.0.targets == Some(Discovery.ClockCandidates(sh))
    ensures e.targets.Some? ==> r.0.targets == e.targets
    ensures r.0.classRegistered <==>
              e.classRegistered || (Discovery.ClockCandidates(sh) != [] && registerOk)
    ensures r.1 == Started <==>
              Discovery.ClockCandidates(sh) != [] && !e.classRegistered && registerOk && hookResult != NULL
    ensures r.1 == Started ==> r.0.running && r.0.hook == hookResult
    ensures r.1.StartFailed? ==> r.0.running == e.running && r.0.hook == e.hook
    // each failure is reported as the first check that did not pass
    ensures r.1 == StartFailed(NoClockWindows) <==> Discovery.ClockCandidates(sh) == []
    ensures r.1 == StartFailed(ClassRegistrationFailed) <==>
              Discovery.ClockCandidates(sh) != [] && (e.classRegistered || !registerOk)
    ensures r.1 == StartFailed(HookInstallFailed) <==>
              Discovery.ClockCandidates(sh) != [] && !e.classRegistered && registerOk && hookResult == NULL
    ensures r.1 == StartFailed(HookInstallFailed) ==> r.0.classRegistered
    ensures r.0.tooltip == e.tooltip
  {
    var e1 := e.(lastMouse := if e.lastMouse.None? then Some(Point(0, 0)) else e.lastMouse);
    var found := Discovery.ClockCandidates(sh);
    var e2 := e1.(targets := if e1.targets.None? then Some(found) else e1.targets);
    if found == [] then (e2, StartFailed(NoClockWindows))
    else if e2.classRegistered || !registerOk then (e2, StartFailed(ClassRegistrationFailed))
    else
      var e3 := e2.(classRegistered := true);
      if hookResult == NULL then (e3, StartFailed(HookInstallFailed))
      else (e3.(hook := hookResult, running := true), Started)
  }

  /** `stop_clock_hook`: hide the tooltip, drop the hook, clear `RUNNING`. */
  function StopClockHook(e: Engine): (r: Engine)
    ensures !r.running && r.hook == NULL && r.tooltip.window == NULL
    ensures r.targets == e.targets && r.classRegistered == e.classRegistered && r.lastMouse == e.lastMouse
    ensures Consistent(e.tooltip) ==> r.tooltip == Tooltip(false, NULL)
  {
    e.(tooltip := HideTooltip(e.tooltip), hook := NULL, running := false)
  }

  /** Stopping twice is stopping once. */
  lemma StopIdempotent(e: Engine)
    ensures StopClockHook(StopClockHook(e)) == StopClockHook(e)
  {
  }

  /**
   * Starting twice never installs a second mouse hook: the second attempt
   * fails before `SetWindowsHookExW`, and the first hook stays recorded.
   */
  lemma SecondStartInstallsNoSecondHook(e: Engine, sh1: Discovery.Shell, sh2: Discovery.Shell,
                                        reg1: bool, reg2: bool, h1: Handle, h2: Handle)
    requires StartClockHook(e, sh1, reg1, h1).1 == Started
    ensures var e1 := StartClockHook(e, sh1, reg1, h1).0;
            var r := StartClockHook(e1, sh2, reg2, h2);
            && r.1.StartFailed? && r.1.error != HookInstallFailed
            && r.0.hook == h1 && r.0.running
  {
  }

  /**
   * The targets are stored once, even when none were found: after a first
   * start that found no clock window, a later start may succeed, yet no point
   * is ever on a clock.
   */
  lemma EmptyTargetsStick(sh1: Discovery.Shell, sh2: Discovery.Shell, registerOk: bool, hookResult: Handle,
                          desktop: Desktop, x: int, y: int)
    requires Discovery.ClockCandidates(sh1) == []
    ensures var r1 := StartClockHook(Initial(), sh1, registerOk, hookResult);
            var r2 := StartClockHook(r1.0, sh2, registerOk, hookResult);
            && r1.1 == StartFailed(NoClockWindows) && r1.0.targets == Some([])
            && r2.0.targets == Some([]) && !InAnyClock(r2.0.targets, desktop, x, y)
  {
  }

  function IsHookRunning(e: Engine): bool {
    e.running
  }

  /** The state of a fresh process as the source initialises it: `RUNNING` starts out true. */
  function InitialAsWritten(): Engine {
    Engine(NULL, Tooltip(false, NULL), None, true, None, false)
  }

  /** The state of a fresh process with `RUNNING` starting out false. */
  function Initial(): Engine {
    Engine(NULL, Tooltip(false, NULL), None, false, None, false)
  }

  /**
   * As written, `is_hook_running` reports true before any start, and still
   * does after a start that failed because no clock window exists.
   */
  lemma RunningAsWrittenBeforeStart()
    ensures IsHookRunning(InitialAsWritten())
    ensures var r := StartClockHook(InitialAsWritten(), Discovery.Shell(map[], map[]), true, 7);
            r.1 == StartFailed(NoClockWindows) && IsHookRunning(r.0)
  {
  }

  /** With `RUNNING` starting false, the flag after a first start says exactly whether it succeeded. */
  lemma RunningOnlyAfterSuccessfulStart(sh: Discovery.Shell, registerOk: bool, hookResult: Handle)
    ensures !IsHookRunning(Initial())
    ensures var r := StartClockHook(Initial(), sh, registerOk, hookResult);
            IsHookRunning(r.0) <==> r.1 == Started
  {
  }
}

=== FILE: text.dfy ===
/**
 * String vocabulary used by the program: substring search (`str::contains`),
 * ASCII digit tests, UTF-8 byte length (`str::len`) and line splitting
 * (`str::lines`).
 */
module Text {

  predicate StartsWith(s: string, p: string) {
    |p| <= |s| && s[..|p|] == p
  }

  /** `p` occurs in `s` starting at offset `i`. */
  predicate OccursAt(s: string, p: string, i: nat) {
    i + |p| <= |s| && s[i..i + |p|] == p
  }

  /** `s.contains(p)`, computed by trying every starting offset. */
  predicate Contains(s: string, p: string)
    decreases |s|
  {
    StartsWith(s, p) || (|s| > 0 && Contains(s[1..], p))
  }

  /** The offset-based meaning of `Contains`. */
  lemma {:induction false} ContainsIff(s: string, p: string)
    ensures Contains(s, p) <==> exists i: nat :: OccursAt(s, p, i)
    decreases |s|
  {
    if StartsWith(s, p) {
      assert OccursAt(s, p, 0);
    } else if |s| > 0 {
      ContainsIff(s[1..], p);
      forall i: nat | OccursAt(s, p, i) ensures OccursAt(s[1..], p, i - 1) {
        if i > 0 {
          assert s[1..][i - 1..i - 1 + |p|] == s[i..i + |p|];
        }
      }
      forall j: nat | OccursAt(s[1..], p, j) ensures OccursAt(s, p, j + 1) {
        assert s[j + 1..j + 1 + |p|] == s[1..][j..j + |p|];
      }
    }
  }

  /** Every character of a contained string occurs in the containing one. */
  lemma {:induction false} ContainsChars(s: string, p: string, k: nat)
    requires Contains(s, p) && k < |p|
    ensures p[k] in s
    decreases |s|
  {
    if StartsWith(s, p) {
      assert s[k] == p[k];
    } else {
      ContainsChars(s[1..], p, k);
    }
  }

  /** A string contains itself found at offset `i` of a larger one. */
  lemma ContainsAt(s: string, p: string, i: nat)
    requires OccursAt(s, p, i)
    ensures Contains(s, p)
  {
    ContainsIff(s, p);
  }

  /** A pattern with a character the text lacks does not occur in it. */
  lemma NotContainedByChar(s: string, p: string, k: nat)
    requires k < |p| && p[k] !in s
    ensures !Contains(s, p)
  {
    if Contains(s, p) {
      ContainsChars(s, p, k);
    }
  }

  predicate IsAsciiDigit(c: char) {
    '0' <= c <= '9'
  }

  /** `s.chars().any(|c| c.is_ascii_digit())` */
  predicate HasAsciiDigit(s: string) {
    exists i :: 0 <= i < |s| && IsAsciiDigit(s[i])
  }

  predicate IsAscii(s: string) {
    forall i :: 0 <= i < |s| ==> s[i] as int < 0x80
  }

  /** Number of UTF-8 bytes that encode `c`. */
  function Utf8Width(c: char): (n: nat)
    ensures 1 <= n <= 4
    ensures n == 1 <==> c as int < 0x80
  {
    if c as int < 0x80 then 1
    else if c as int < 0x800 then 2
    else if c as int < 0x1_0000 then 3
    else 4
  }

  /** `str::len`: the byte length of the UTF-8 encoding. */
  function Utf8Len(s: string): (n: nat)
    ensures n >= |s|
    ensures n <= 4 * |s|
  {
    if s == [] then 0 else Utf8Width(s[0]) + Utf8Len(s[1..])
  }

  /** On ASCII text the byte length and the character count agree. */
  lemma {:induction false} AsciiUtf8Len(s: string)
    requires IsAscii(s)
    ensures Utf8Len(s) == |s|
  {
    if s != [] {
      assert IsAscii(s[1..]) by {
        forall i | 0 <= i < |s[1..]| ensures s[1..][i] as int < 0x80 {
          assert s[1..][i] == s[i + 1];
        }
      }
      AsciiUtf8Len(s[1..]);
    }
  }

  /** Index of the first '\n' in `s`, or `|s|` when there is none. */
  function NewlineIndex(s: string): (k: nat)
    ensures k <= |s|
    ensures k < |s| ==> s[k] == '\n'
    ensures forall i :: 0 <= i < k ==> s[i] != '\n'
  {
    if s == [] then 0
    else if s[0] == '\n' then 0
    else 1 + NewlineIndex(s[1..])
  }

  /** Removes one trailing carriage return, as `str::lines` does before a '\n'. */
  function DropCr(line: string): string {
    if |line| > 0 && line[|line| - 1] == '\r' then line[..|line| - 1] else line
  }

  /**
   * `str::lines`: pieces between '\n' characters, a "\r\n" ending counting as
   * one terminator; a final terminator does not start an empty last line, and
   * the empty string has no lines.
   */
  function Lines(s: string): seq<string>
    decreases |s|
  {
    if s == [] then []
    else
      var k := NewlineIndex(s);
      if k == |s| then [s] else [DropCr(s[..k])] + Lines(s[k + 1..])
  }

  /** Inverse of `Lines` on text without carriage returns: joins with '\n'. */
  function JoinLines(ls: seq<string>): string {
    if ls == [] then []
    else if |ls| == 1 then ls[0]
    else ls[0] + "\n" + JoinLines(ls[1..])
  }

  predicate NoChar(s: string, c: char) {
    forall i :: 0 <= i < |s| ==> s[i] != c
  }

  /** No line returned by `Lines` contains a newline. */
  lemma {:induction false} LinesHaveNoNewline(s: string)
    ensures forall j :: 0 <= j < |Lines(s)| ==> NoChar(Lines(s)[j], '\n')
    decreases |s|
  {
    if s != [] {
      var k := NewlineIndex(s);
      if k < |s| {
        LinesHaveNoNewline(s[k + 1..]);
        var ls := Lines(s);
        forall j | 0 <= j < |ls| ensures NoChar(ls[j], '\n') {
          if j > 0 {
            assert ls[j] == Lines(s[k + 1..])[j - 1];
          }
        }
      }
    }
  }

  /**
   * Round trip: for text without carriage returns that does not end with a
   * newline, joining its lines with '\n' gives the text back.
   */
  lemma {:induction false} JoinLinesOfLines(s: string)
    requires NoChar(s, '\r')
    requires s == [] || s[|s| - 1] != '\n'
    ensures JoinLines(Lines(s)) == s
    decreases |s|
  {
    if s != [] {
      var k := NewlineIndex(s);
      if k < |s| {
        var rest := s[k + 1..];
        assert rest != [];
        assert NoChar(rest, '\r') by {
          forall i | 0 <= i < |rest| ensures rest[i] != '\r' {
            assert rest[i] == s[k + 1 + i];
          }
        }
        assert rest[|rest| - 1] == s[|s| - 1];
        JoinLinesOfLines(rest);
        assert DropCr(s[..k]) == s[..k] by {
          if k > 0 {
            assert s[..k][k - 1] == s[k - 1];
          }
        }
        var tailLines := Lines(rest);
        assert tailLines != [] by {
          assert NewlineIndex(rest) <= |rest|;
        }
        assert Lines(s) == [s[..k]] + tailLines;
        assert s == s[..k] + "\n" + rest;
      }
    }
  }

  /** Printable ASCII: no control characters, so no line breaks. */
  predicate Printable(s: string) {
    forall i :: 0 <= i < |s| ==> 0x20 <= s[i] as int < 0x7F
  }

  lemma PrintableConcat(a: string, b: string)
    requires Printable(a) && Printable(b)
    ensures Printable(a + b)
  {
    forall i | 0 <= i < |a + b| ensures 0x20 <= (a + b)[i] as int < 0x7F {
      if i >= |a| {
        assert (a + b)[i] == b[i - |a|];
      }
    }
  }

  /** Two printable lines joined by '\n' split back into exactly those lines. */
  lemma LinesOfTwo(a: string, b: string)
    requires Printable(a) && Printable(b) && b != []
    ensures Lines(a + "\n" + b) == [a, b]
  {
    var s := a + "\n" + b;
    assert s[|a|] == '\n';
    assert forall i :: 0 <= i < |a| ==> s[i] == a[i];
    assert NewlineIndex(s) == |a|;
    assert s[..|a|] == a;
    assert s[|a| + 1..] == b;
    assert DropCr(a) == a;
    assert NewlineIndex(b) == |b|;
  }

  /** Text followed by a line break has its first line break where the text has it, or at the appended one. */
  lemma NewlineIndexExtend(a: string, s: string)
    requires |a| < |s| && s[..|a|] == a && s[|a|] == '\n'
    ensures NewlineIndex(s) == NewlineIndex(a)
  {
    var k := NewlineIndex(a);
    var j := NewlineIndex(s);
    assert k < |a| ==> s[k] == a[k];
    assert j < |a| ==> s[j] == a[j];
  }

  /**
   * Appending a line break and more text after text that does not end in a
   * line break or a carriage return keeps its lines and adds those of the
   * appended text; empty text in front contributes one empty line.
   */
  lemma {:induction false} LinesAppend(a: string, b: string)
    requires a == [] || (a[|a| - 1] != '\n' && a[|a| - 1] != '\r')
    ensures Lines(a + "\n" + b) == (if a == [] then [""] else Lines(a)) + Lines(b)
    decreases |a|
  {
    var s := a + "\n" + b;
    assert s[..|a|] == a && s[|a|] == '\n';
    NewlineIndexExtend(a, s);
    var k := NewlineIndex(a);
    if k == |a| {
      LinesAppendLastLine(a, b);
    } else {
      var rest := a[k + 1..];
      assert rest != [] && rest[|rest| - 1] == a[|a| - 1];
      LinesAppend(rest, b);
      LinesAppendStep(a, b, k);
      var first := [DropCr(a[..k])];
      assert Lines(a + "\n" + b) == first + (Lines(rest) + Lines(b));
      assert first + (Lines(rest) + Lines(b)) == (first + Lines(rest)) + Lines(b);
    }
  }

  /** `LinesAppend` when `a` holds no line break: it is one line (or none when empty). */
  lemma LinesAppendLastLine(a: string, b: string)
    requires a == [] || a[|a| - 1] != '\r'
    requires NewlineIndex(a) == |a|
    ensures Lines(a + "\n" + b) == (if a == [] then [""] else Lines(a)) + Lines(b)
  {
    var s := a + "\n" + b;
    assert s[..|a|] == a && s[|a|] == '\n';
    NewlineIndexExtend(a, s);
    assert s[|a| + 1..] == b;
    assert DropCr(a) == a;
  }

  /** One step of `LinesAppend`: the first line of `a` ends at `k`, and the rest is appended to. */
  lemma LinesAppendStep(a: string, b: string, k: nat)
    requires k < |a| && NewlineIndex(a) == k && k + 1 < |a|
    ensures Lines(a + "\n" + b) == [DropCr(a[..k])] + Lines(a[k + 1..] + "\n" + b)
    ensures Lines(a) == [DropCr(a[..k])] + Lines(a[k + 1..])
  {
    var s := a + "\n" + b;
    assert s[..|a|] == a && s[|a|] == '\n';
    NewlineIndexExtend(a, s);
    assert s[..k] == a[..k];
    assert s[k + 1..] == a[k + 1..] + "\n" + b;
  }
}

=== FILE: uptime.dfy ===
/**
 * Uptime formatting, as done by `generate_tooltip_text` (xclock/src/lib.rs)
 * and `get_uptime` (xclock-hook/src/lib.rs): whole seconds are split into
 * days, hours and minutes and printed as "{d}d {h}h {m}m", "{h}h {m}m" or
 * "{m}m", the largest non-zero unit deciding the shape.
 */
module Uptime {
  import opened Win
  import opened Text
  import opened Decimal

  const SECS_PER_DAY := 86400
  const SECS_PER_HOUR := 3600
  const SECS_PER_MINUTE := 60

  datatype Span = Span(days: nat, hours: nat, minutes: nat)

  /** Seconds accounted for by a span. */
  function Seconds(sp: Span): nat {
    sp.days * SECS_PER_DAY + sp.hours * SECS_PER_HOUR + sp.minutes * SECS_PER_MINUTE
  }

  /** A span whose hours and minutes are in range. */
  predicate Normal(sp: Span) {
    sp.hours < 24 && sp.minutes < 60
  }

  /** Splits whole seconds into days, hours and minutes; leftover seconds are dropped. */
  function Split(secs: nat): (sp: Span)
    ensures Normal(sp)
    ensures Seconds(sp) <= secs < Seconds(sp) + SECS_PER_MINUTE
  {
    var sp := Span(secs / SECS_PER_DAY, (secs % SECS_PER_DAY) / SECS_PER_HOUR, (secs % SECS_PER_HOUR) / SECS_PER_MINUTE);
    SplitBounds(secs);
    sp
  }

  lemma SplitBounds(secs: nat)
    ensures var sp := Span(secs / SECS_PER_DAY, (secs % SECS_PER_DAY) / SECS_PER_HOUR,
                           (secs % SECS_PER_HOUR) / SECS_PER_MINUTE);
            Normal(sp) && Seconds(sp) <= secs < Seconds(sp) + SECS_PER_MINUTE
  {
    var d := secs / SECS_PER_DAY;
    var r := secs % SECS_PER_DAY;
    var h := r / SECS_PER_HOUR;
    var r2 := r % SECS_PER_HOUR;
    var m := r2 / SECS_PER_MINUTE;
    assert h < 24;
    DivModByHour(secs, 24 * d + h, r2);
    assert m < 60 && r2 - SECS_PER_MINUTE < m * SECS_PER_MINUTE <= r2;
  }

  /** Quotient and remainder by a day are determined by their bounds. */
  lemma DivModByDay(a: int, q: int, r: int)
    requires a == SECS_PER_DAY * q + r && 0 <= r < SECS_PER_DAY
    ensures a / SECS_PER_DAY == q && a % SECS_PER_DAY == r
  {
  }

  /** Quotient and remainder by an hour are determined by their bounds. */
  lemma DivModByHour(a: int, q: int, r: int)
    requires a == SECS_PER_HOUR * q + r && 0 <= r < SECS_PER_HOUR
    ensures a / SECS_PER_HOUR == q && a % SECS_PER_HOUR == r
  {
  }

  /** Quotient and remainder by a minute are determined by their bounds. */
  lemma DivModByMinute(a: int, q: int, r: int)
    requires a == SECS_PER_MINUTE * q + r && 0 <= r < SECS_PER_MINUTE
    ensures a / SECS_PER_MINUTE == q && a % SECS_PER_MINUTE == r
  {
  }

  /** `Split` is the only normal span that brackets `secs` within one minute. */
  lemma SplitUnique(secs: nat, sp: Span)
    requires Normal(sp)
    requires Seconds(sp) <= secs < Seconds(sp) + SECS_PER_MINUTE
    ensures sp == Split(secs)
  {
    var s0 := secs - Seconds(sp);
    var inMinute := sp.minutes * SECS_PER_MINUTE + s0;
    var inDay := sp.hours * SECS_PER_HOUR + inMinute;
    DivModByDay(secs, sp.days, inDay);
    DivModByHour(inDay, sp.hours, inMinute);
    DivModByHour(secs, 24 * sp.days + sp.hours, inMinute);
    DivModByMinute(inMinute, sp.minutes, s0);
  }

  /** The text shape of `generate_tooltip_text` and `get_uptime`. */
  function Format(sp: Span): string {
    if sp.days > 0 then DaysText(sp.days, sp.hours, sp.minutes)
    else if sp.hours > 0 then HoursText(sp.hours, sp.minutes)
    else MinutesText(sp.minutes)
  }

  /** "{m}m" */
  function MinutesText(m: nat): string {
    NatToString(m) + "m"
  }

  /** "{h}h {m}m" */
  function HoursText(h: nat, m: nat): string {
    NatToString(h) + "h " + MinutesText(m)
  }

  /** "{d}d {h}h {m}m" */
  function DaysText(d: nat, h: nat, m: nat): string {
    NatToString(d) + "d " + HoursText(h, m)
  }

  /** Uptime text for a number of whole seconds (`generate_tooltip_text`). */
  function UptimeText(secs: nat): string {
    Format(Split(secs))
  }

  /**
   * `get_uptime`: `GetTickCount` milliseconds, a 32-bit counter that wraps
   * after about 49.7 days, truncated to whole seconds first.
   */
  function HookUptime(tick: U32): string {
    UptimeText(tick / 1000)
  }

  /** The tick counter's wrap-around bounds the day count the hook can show. */
  lemma HookUptimeDays(tick: U32)
    ensures Split(tick / 1000).days <= 49
  {
  }

  /** Reads "{n}{unit}" at the start of `s`, returning `n` and the text after the unit. */
  function ParseUnit(s: string, unit: char): Option<(nat, string)> {
    match ParseNat(s)
    case None => None
    case Some((n, r)) =>
      if |r| > 0 && r[0] == unit then Some((n, r[1..])) else None
  }

  /** "{m}m" and nothing after it. */
  function ParseMinutes(s: string): Option<nat> {
    match ParseUnit(s, 'm')
    case Some((m, r)) => if r == [] then Some(m) else None
    case None => None
  }

  /** "{h}h {m}m" and nothing after it. */
  function ParseHoursMinutes(s: string): Option<(nat, nat)> {
    match ParseUnit(s, 'h')
    case Some((h, r)) =>
      if |r| > 0 && r[0] == ' ' then
        match ParseMinutes(r[1..])
        case Some(m) => Some((h, m))
        case None => None
      else None
    case None => None
  }

  /**
   * Reads back an uptime text. A leading "0d" or "0h" is rejected, because
   * `Format` never prints a zero leading unit.
   */
  function Parse(s: string): Option<Span> {
    match ParseMinutes(s)
    case Some(m) => Some(Span(0, 0, m))
    case None =>
      match ParseHoursMinutes(s)
      case Some((h, m)) => if h > 0 then Some(Span(0, h, m)) else None
      case None =>
        match ParseUnit(s, 'd')
        case Some((d, r)) =>
          if d > 0 && |r| > 0 && r[0] == ' ' then
            match ParseHoursMinutes(r[1..])
            case Some((h, m)) => Some(Span(d, h, m))
            case None => None
          else None
        case None => None
  }

  lemma ParseUnitOfRendered(n: nat, unit: char, rest: string)
    requires !IsAsciiDigit(unit)
    ensures ParseUnit(NatToString(n) + [unit] + rest, unit) == Some((n, rest))
  {
    assert NatToString(n) + [unit] + rest == NatToString(n) + ([unit] + rest);
    ParseNatOfRendered(n, [unit] + rest);
    assert ([unit] + rest)[1..] == rest;
  }

  /** A successful `ParseUnit` splits the text into a rendering, the unit and a rest. */
  lemma ParseUnitSplits(s: string, unit: char)
    requires ParseUnit(s, unit).Some?
    ensures s == NatToString(ParseUnit(s, unit).value.0) + [unit] + ParseUnit(s, unit).value.1
  {
    ParseNatSplits(s);
    var r := ParseNat(s).value.1;
    assert r == [unit] + r[1..];
  }

  lemma ParseMinutesOfRendered(m: nat)
    ensures ParseMinutes(MinutesText(m)) == Some(m)
  {
    ParseUnitOfRendered(m, 'm', []);
    assert NatToString(m) + "m" == NatToString(m) + ['m'] + [];
  }

  lemma ParseHoursMinutesOfRendered(h: nat, m: nat)
    ensures ParseHoursMinutes(HoursText(h, m)) == Some((h, m))
  {
    var tail := " " + MinutesText(m);
    assert HoursText(h, m) == NatToString(h) + ['h'] + tail;
    ParseUnitOfRendered(h, 'h', tail);
    assert tail[1..] == MinutesText(m);
    ParseMinutesOfRendered(m);
  }

  /** A text ending in "h {m}m" or "d ..." is not a bare minutes text. */
  lemma NotMinutesOnly(n: nat, unit: char, rest: string)
    requires unit != 'm' && !IsAsciiDigit(unit)
    ensures ParseMinutes(NatToString(n) + [unit] + rest) == None
  {
    var s := NatToString(n) + [unit] + rest;
    assert s == NatToString(n) + ([unit] + rest);
    ParseNatOfRendered(n, [unit] + rest);
  }

  lemma ParseWhenMinutes(s: string, m: nat)
    requires ParseMinutes(s) == Some(m)
    ensures Parse(s) == Some(Span(0, 0, m))
  {
  }

  lemma ParseWhenHours(s: string, h: nat, m: nat)
    requires ParseMinutes(s) == None && ParseHoursMinutes(s) == Some((h, m)) && h > 0
    ensures Parse(s) == Some(Span(0, h, m))
  {
  }

  lemma ParseWhenDays(s: string, d: nat, r: string, h: nat, m: nat)
    requires ParseMinutes(s) == None && ParseHoursMinutes(s) == None
    requires ParseUnit(s, 'd') == Some((d, r)) && d > 0 && |r| > 0 && r[0] == ' '
    requires ParseHoursMinutes(r[1..]) == Some((h, m))
    ensures Parse(s) == Some(Span(d, h, m))
  {
  }

  /** A rendered number followed by a unit other than 'h' is not an hours text. */
  lemma NotHoursMinutes(n: nat, unit: char, rest: string)
    requires unit != 'h' && !IsAsciiDigit(unit)
    ensures ParseHoursMinutes(NatToString(n) + [unit] + rest) == None
  {
    var s := NatToString(n) + [unit] + rest;
    assert s == NatToString(n) + ([unit] + rest);
    ParseNatOfRendered(n, [unit] + rest);
    assert ParseUnit(s, 'h') == None;
  }

  /** Round trip: every uptime text reads back as the span it was printed from. */
  lemma ParseFormat(sp: Span)
    ensures Parse(Format(sp)) == Some(sp)
  {
    if sp.days > 0 {
      ParseFormatDays(sp);
    } else if sp.hours > 0 {
      ParseFormatHours(sp);
    } else {
      ParseMinutesOfRendered(sp.minutes);
      ParseWhenMinutes(Format(sp), sp.minutes);
    }
  }

  lemma ParseFormatDays(sp: Span)
    requires sp.days > 0
    ensures Parse(Format(sp)) == Some(sp)
  {
    var hm := HoursText(sp.hours, sp.minutes);
    var tail := " " + hm;
    var s := NatToString(sp.days) + ['d'] + tail;
    assert Format(sp) == s;
    NotMinutesOnly(sp.days, 'd', tail);
    NotHoursMinutes(sp.days, 'd', tail);
    ParseUnitOfRendered(sp.days, 'd', tail);
    assert tail[1..] == hm;
    ParseHoursMinutesOfRendered(sp.hours, sp.minutes);
    ParseWhenDays(s, sp.days, tail, sp.hours, sp.minutes);
  }

  lemma ParseFormatHours(sp: Span)
    requires sp.days == 0 && sp.hours > 0
    ensures Parse(Format(sp)) == Some(sp)
  {
    var tail := " " + MinutesText(sp.minutes);
    var s := NatToString(sp.hours) + ['h'] + tail;
    assert Format(sp) == s;
    NotMinutesOnly(sp.hours, 'h', tail);
    ParseHoursMinutesOfRendered(sp.hours, sp.minutes);
    ParseWhenHours(s, sp.hours, sp.minutes);
  }

  lemma MinutesSplits(s: string)
    requires ParseMinutes(s).Some?
    ensures s == MinutesText(ParseMinutes(s).value)
  {
    ParseUnitSplits(s, 'm');
  }

  lemma HoursMinutesSplits(s: string)
    requires ParseHoursMinutes(s).Some?
    ensures s == HoursText(ParseHoursMinutes(s).value.0, ParseHoursMinutes(s).value.1)
  {
    var (h, r) := ParseUnit(s, 'h').value;
    ParseUnitSplits(s, 'h');
    MinutesSplits(r[1..]);
    UnitThenSpace(NatToString(h), 'h', r);
  }

  lemma DaysSplits(s: string, d: nat, r: string, h: nat, m: nat)
    requires ParseUnit(s, 'd') == Some((d, r)) && |r| > 0 && r[0] == ' '
    requires ParseHoursMinutes(r[1..]) == Some((h, m))
    ensures s == DaysText(d, h, m)
  {
    ParseUnitSplits(s, 'd');
    HoursMinutesSplits(r[1..]);
    UnitThenSpace(NatToString(d), 'd', r);
  }

  /** Rejoins "{n}", a unit letter and a text starting with a space. */
  lemma UnitThenSpace(n: string, unit: char, r: string)
    requires |r| > 0 && r[0] == ' '
    ensures n + [unit] + r == n + [unit, ' '] + r[1..]
  {
    assert r == [' '] + r[1..];
  }

  /** Converse: whatever `Parse` accepts is exactly the printed form of its span. */
  lemma FormatParse(s: string)
    requires Parse(s).Some?
    ensures Format(Parse(s).value) == s
  {
    if ParseMinutes(s).Some? {
      MinutesSplits(s);
      ParseWhenMinutes(s, ParseMinutes(s).value);
    } else if ParseHoursMinutes(s).Some? {
      var (h, m) := ParseHoursMinutes(s).value;
      HoursMinutesSplits(s);
      ParseWhenHours(s, h, m);
    } else {
      var (d, r) := ParseUnit(s, 'd').value;
      var (h, m) := ParseHoursMinutes(r[1..]).value;
      DaysSplits(s, d, r, h, m);
      ParseWhenDays(s, d, r, h, m);
    }
  }

  /** Parsing and formatting are inverse: a text is the uptime text of `sp` exactly when it parses to `sp`. */
  lemma FormatIffParse(sp: Span, s: string)
    ensures Format(sp) == s <==> Parse(s) == Some(sp)
  {
    if Format(sp) == s {
      ParseFormat(sp);
    }
    if Parse(s) == Some(sp) {
      FormatParse(s);
    }
  }

  /** The worked examples of the uptime format. */
  lemma FormatExamples()
    ensures Format(Split(5 * 60)) == "5m"
    ensures Format(Split(SECS_PER_DAY + 2 * SECS_PER_HOUR + 3 * 60)) == "1d 2h 3m"
    ensures Format(Split(3 * SECS_PER_HOUR)) == "3h 0m"
  {
    FormatFiveMinutes();
    FormatOneDayTwoHours();
    FormatThreeHours();
  }

  lemma FormatFiveMinutes()
    ensures Format(Split(5 * 60)) == "5m"
  {
    SplitUnique(5 * 60, Span(0, 0, 5));
    assert NatToString(5) == "5";
  }

  lemma FormatOneDayTwoHours()
    ensures Format(Split(SECS_PER_DAY + 2 * SECS_PER_HOUR + 3 * 60)) == "1d 2h 3m"
  {
    SplitUnique(SECS_PER_DAY + 2 * SECS_PER_HOUR + 3 * 60, Span(1, 2, 3));
    assert NatToString(1) == "1" && NatToString(2) == "2" && NatToString(3) == "3";
  }

  lemma FormatThreeHours()
    ensures Format(Split(3 * SECS_PER_HOUR)) == "3h 0m"
  {
    SplitUnique(3 * SECS_PER_HOUR, Span(0, 3, 0));
    assert NatToString(3) == "3" && NatToString(0) == "0";
  }

  /** Uptime text is printable ASCII. */
  lemma PrintableUptime(secs: nat)
    ensures Printable(UptimeText(secs))
  {
    var sp := Split(secs);
    PrintableDecimal(sp.days);
    PrintableDecimal(sp.hours);
    PrintableDecimal(sp.minutes);
    PrintableConcat(NatToString(sp.minutes), "m");
    PrintableConcat(NatToString(sp.hours), "h ");
    PrintableConcat(NatToString(sp.hours) + "h ", MinutesText(sp.minutes));
    PrintableConcat(NatToString(sp.days), "d ");
    PrintableConcat(NatToString(sp.days) + "d ", HoursText(sp.hours, sp.minutes));
  }
}

=== FILE: wide.dfy ===
/**
 * The wide-string helpers shared by all three source files: `to_wide_string`
 * / `string_to_utf16` (UTF-16 code units followed by one terminating 0) and
 * `from_wide_string` / `utf16_to_string` (lossy UTF-16 decoding, then every
 * trailing NUL stripped).
 */
module Wide {
  import opened Win

  predicate IsHighSurrogate(u: U16) { 0xD800 <= u < 0xDC00 }
  predicate IsLowSurrogate(u: U16) { 0xDC00 <= u < 0xE000 }

  const REPLACEMENT: char := 0xFFFD as char

  /** `char::encode_utf16`: one unit in the basic plane, a surrogate pair above it. */
  function EncodeChar(c: char): (w: seq<U16>)
    ensures |w| == 1 <==> c as int < 0x1_0000
    ensures |w| == 1 || |w| == 2
    ensures |w| == 1 ==> !IsHighSurrogate(w[0]) && !IsLowSurrogate(w[0])
    ensures |w| == 2 ==> IsHighSurrogate(w[0]) && IsLowSurrogate(w[1])
  {
    var v := c as int;
    if v < 0x1_0000 then [v]
    else [0xD800 + (v - 0x1_0000) / 0x400, 0xDC00 + (v - 0x1_0000) % 0x400]
  }

  /** `str::encode_utf16` */
  function EncodeUtf16(s: string): (w: seq<U16>)
    ensures |s| <= |w| <= 2 * |s|
  {
    if s == [] then [] else EncodeChar(s[0]) + EncodeUtf16(s[1..])
  }

  /** `String::from_utf16_lossy`: every unpaired surrogate becomes U+FFFD. */
  function DecodeUtf16(w: seq<U16>): string
    decreases |w|
  {
    if w == [] then []
    else if |w| >= 2 && IsHighSurrogate(w[0]) && IsLowSurrogate(w[1]) then
      var v := 0x1_0000 + (w[0] as int - 0xD800) * 0x400 + (w[1] as int - 0xDC00);
      [v as char] + DecodeUtf16(w[2..])
    else if IsHighSurrogate(w[0]) || IsLowSurrogate(w[0]) then
      [REPLACEMENT] + DecodeUtf16(w[1..])
    else
      [w[0] as char] + DecodeUtf16(w[1..])
  }

  /** `s.trim_end_matches('\0')` */
  function TrimTrailingNul(s: string): (r: string)
    ensures r <= s
    ensures r == [] || r[|r| - 1] != '\0'
    ensures forall i :: |r| <= i < |s| ==> s[i] == '\0'
  {
    if s == [] || s[|s| - 1] != '\0' then s else TrimTrailingNul(s[..|s| - 1])
  }

  /** `to_wide_string` / `string_to_utf16`: the units of `s` and a terminating 0. */
  function ToWide(s: string): (w: seq<U16>)
    ensures |w| >= |s| + 1 && w[|w| - 1] == 0
  {
    EncodeUtf16(s) + [0]
  }

  /** `from_wide_string` / `utf16_to_string` */
  function FromWide(w: seq<U16>): string {
    TrimTrailingNul(DecodeUtf16(w))
  }

  /** Decoding what one character encodes to, followed by anything, yields that character first. */
  lemma DecodeEncodedChar(c: char, rest: seq<U16>)
    ensures DecodeUtf16(EncodeChar(c) + rest) == [c] + DecodeUtf16(rest)
  {
    var w := EncodeChar(c) + rest;
    if c as int < 0x1_0000 {
      assert w[1..] == rest;
      assert !IsHighSurrogate(w[0]) && !IsLowSurrogate(w[0]);
    } else {
      assert w[2..] == rest;
      var v := c as int;
      assert 0x1_0000 + (w[0] as int - 0xD800) * 0x400 + (w[1] as int - 0xDC00) == v;
    }
  }

  /** Round trip of the encoder: decoding the units gives the string back. */
  lemma {:induction false} DecodeEncode(s: string, tail: seq<U16>)
    ensures DecodeUtf16(EncodeUtf16(s) + tail) == s + DecodeUtf16(tail)
  {
    if s == [] {
      assert EncodeUtf16(s) + tail == tail;
    } else {
      DecodeEncode(s[1..], tail);
      DecodeFirstChar(s, tail);
      ConsTail(s, DecodeUtf16(tail), DecodeUtf16(EncodeUtf16(s[1..]) + tail));
    }
  }

  lemma DecodeFirstChar(s: string, tail: seq<U16>)
    requires s != []
    ensures DecodeUtf16(EncodeUtf16(s) + tail) == [s[0]] + DecodeUtf16(EncodeUtf16(s[1..]) + tail)
  {
    var rest := EncodeUtf16(s[1..]) + tail;
    assert EncodeUtf16(s) + tail == EncodeChar(s[0]) + rest;
    DecodeEncodedChar(s[0], rest);
  }

  lemma ConsTail(s: string, d: string, r: string)
    requires s != [] && r == s[1..] + d
    ensures [s[0]] + r == s + d
  {
    assert [s[0]] + s[1..] == s;
  }

  /** The terminator is exactly one 0 unit after the UTF-16 units of `s`. */
  lemma ToWideLayout(s: string)
    ensures ToWide(s)[..|ToWide(s)| - 1] == EncodeUtf16(s)
    ensures |ToWide(s)| == |EncodeUtf16(s)| + 1
    ensures DecodeUtf16(ToWide(s)) == s + ['\0']
  {
    DecodeEncode(s, [0]);
    assert DecodeUtf16([0]) == ['\0'] by {
      assert [0][1..] == [];
    }
  }

  /** Round trip: a string without trailing NUL survives `ToWide` then `FromWide`. */
  lemma FromWideToWide(s: string)
    requires s == [] || s[|s| - 1] != '\0'
    ensures FromWide(ToWide(s)) == s
  {
    ToWideLayout(s);
    TrimAfterNul(s);
  }

  lemma TrimAfterNul(s: string)
    requires s == [] || s[|s| - 1] != '\0'
    ensures TrimTrailingNul(s + ['\0']) == s
  {
    var d := s + ['\0'];
    assert d[..|d| - 1] == s;
  }

  /** Reading back units that were stored without a terminator gives the string, when it has no trailing NUL. */
  lemma FromWideEncoded(s: string)
    requires s == [] || s[|s| - 1] != '\0'
    ensures FromWide(EncodeUtf16(s)) == s
  {
    DecodeEncode(s, []);
    assert EncodeUtf16(s) + [] == EncodeUtf16(s);
  }

  /** Stripping trailing NULs from a string that already has none changes nothing. */
  lemma TrimIdempotent(s: string)
    ensures TrimTrailingNul(TrimTrailingNul(s)) == TrimTrailingNul(s)
  {
  }
}

=== FILE: win.dfy ===
/**
 * Shared vocabulary for the model: native handles, rectangles and the
 * optional/result wrappers that stand in for the Win32 null checks and the
 * Rust `Result` values of the original program.
 */
module Win {

  /** A native handle (HWND, HHOOK, HMODULE). 0 plays the role of the null pointer. */
  type Handle = nat

  const NULL: Handle := 0

  /** A 16-bit code unit, as produced by `encode_utf16` and `encode_wide`. */
  type U16 = x: int | 0 <= x < 0x1_0000

  /** A 32-bit unsigned value, as returned by `GetTickCount`. */
  type U32 = x: int | 0 <= x < 0x1_0000_0000

  /** A screen rectangle as filled in by `GetWindowRect` (all edges inclusive in the hit test). */
  datatype Rect = Rect(left: int, top: int, right: int, bottom: int)

  /** A screen point, as carried by `MOUSEHOOKSTRUCT.pt`. */
  datatype Point = Point(x: int, y: int)

  datatype Option<+T> = None | Some(value: T)

  /** Rust's `i32 / i32`: division truncating toward zero (Dafny's `/` is Euclidean). */
  function TruncDiv(a: int, b: int): int
    requires b > 0
  {
    if a >= 0 then a / b else -((-a) / b)
  }
}
